=== FILE: README.md ===
# Prompt Amplifier Studio — a Dafny model of its core

Prompt Amplifier Studio keeps a user's prompts: system prompts, app-starter prompts and
quick actions. It renders them as colour-coded cards and edits them in a dialog with a
"select or create" category combobox. It can also export them as a Tampermonkey userscript.
This project models the logic behind those features and proves properties of it.

- **Escaping** (`escaping.dfy`, `literals.dfy`): `escapePromptContentForScript` and its
  embedded twin `escapeForTemplateLiteral`. These are three global replaces: `\`, backtick,
  then `${`. `JsLiterals.ReadLiteral` is a partial reader for JavaScript string literals. It accepts only
  the escapes the generator writes (`\\`, ``\` ``, `\$`, `\'`). For any other escape (`\n`,
  `\t`, `\x`, `\u`, `\0`, a line continuation) it gives no result. Where it gives a result, that
  result is the value ECMA-262 assigns to the literal. It is the yardstick for "the escaped text
  reads back as the value".
- **Records and the data section** (`record.dfy`, `datasection.dfy`):
  `objectToJsStringForScript`, the prompts array `generateTampermonkeyScript` splices into
  the script, the "no prompts" placeholder, and the `YYYY.MM.DD` script version. Each is
  paired with a parser that reads the generated text back.
- **Modal bookkeeping of the generated script** (`modals.dfy`): `openModalsStack`,
  `currentOpenModal`, `showModal` and `hideModal`. This includes the "z-index ends in 2"
  test for sub-modals and the z-index that `createModal` assigns.
- **Card styling** (`categorystyle.dfy`): the ten-entry palette, the 32-bit string hash
  over UTF-16 code units, `Math.abs(hash) % 10`, and the card and badge classes.
- **The prompt store** (`promptstore.dfy`, `seqs.dfy`): the `usePrompts` hook's user
  effect, `addPrompt`, `updatePrompt`, `deletePrompt` and `getPromptsByType`.
- **The editor dialog** (`promptform.dfy`, `categorylist.dfy`): the open and type
  effects, `handleSubmit`, and the category field with the options it hands to the
  combobox.
- **The combobox** (`combobox.dfy`): `handleSelect`, `showCreateOption` and the popover's
  open-change handler.
- **Types** (`types.dfy`): `PromptType`, `Prompt`, `PROMPT_TYPES`, `PROMPT_TEMPLATES` and
  `PROMPT_TYPE_NAMES`. Shared string helpers are in `text.dfy`: ECMAScript `trim`,
  lower-casing and `replace(/c/g, …)`. `Option` is in `options.dfy`.

The system's design asks for two things of the exported script: every field must read
back exactly, and a preview must stack above the list. The code falls short of both
promises in the places listed under "## Findings". The model follows the code and proves
the corrected behaviour beside it.

## Model

| member | source | states |
|---|---|---|
| Escaping.EscapeForScript | src/lib/utils.ts:47-55 | A missing value gives the empty text. Otherwise the text grows by one character per backslash, backtick and `${`. Between either kind of quote it reads back as exactly the value, provided the value is safe for that quote. |
| Escaping.Escape | src/lib/utils.ts:51-54 | The three replace passes, applied in order, equal the one-pass reference escaper `EscapeChars`. The length grows by the number of `\`, backtick and `${` occurrences. |
| Escaping.EscapeAgrees | src/lib/utils.ts:71-76 | The embedded twin's chain of replaces (backslashes, backticks, then `${`) equals the one-pass reference escaper on every input. |
| Escaping.EscapeRoundTrip | src/lib/utils.ts:59-64 | The escaped value followed by its closing quote and any text reads back as the value, with that text after it. This holds for both quote kinds, when the value has none of the quote's forbidden characters. |
| Escaping.EscapeCharsKeeps | src/lib/utils.ts:51-54 | Escaping adds no character other than backslashes. Any other character occurs in the escaped text exactly when it occurs in the value. |
| Escaping.ApostropheEndsLiteral | src/lib/utils.ts:59-61 | As written, a title such as `it's` is left unescaped inside `'…'`. The literal then ends after `it`, and `s'` plus the rest of the record is read as code. |
| Escaping.EscapeForSingleQuotes | src/lib/utils.ts:59-63 | The corrected escaper for single-quoted fields also escapes `'`. For a value without `'` it gives exactly what the code writes today. |
| Escaping.SingleQuotedRoundTrip | src/lib/utils.ts:59-63 | With the corrected escaper, every value without a raw line break reads back exactly from a single-quoted literal, apostrophes included. |
| ScriptRecord.RecordTextLayout | src/lib/utils.ts:58-66 | The record text is the five fields `id`, `type`, `title`, `category`, `content`, in that order. Each is written after its fixed lead and quote, and they are separated by `,\n` inside `{\n … \n}`. |
| ScriptRecord.RecordText | src/lib/utils.ts:58-66 | The record opens with `{` and a line break and closes with the content's backtick, a line break and `}`. Around the five escaped values it adds exactly 88 characters of fixed layout. |
| ScriptRecord.FieldsRoundTrip | src/lib/utils.ts:59-65 | Any sequence of written fields reads back as its values, in order, followed by the text after the fields. This holds under any indentation after line breaks. |
| ScriptRecord.RecordRoundTrip | src/lib/utils.ts:58-66 | One record, under any indentation of its own line breaks, reads back as the prompt's id, type, title, category (empty when absent) and content, followed by the text after it. |
| DataSection.EscapeIndentCommute | src/lib/utils.ts:81 | Re-indenting line breaks after escaping gives the same text as escaping after re-indenting. |
| DataSection.EntryText | src/lib/utils.ts:81 | Each entry starts with eight spaces, the record's `{`, a line break and eight more spaces. It ends with a line break, eight spaces and `}`. |
| DataSection.DataSectionText | src/lib/utils.ts:80-82 | With no prompts the section is the placeholder comment. Otherwise it starts with eight spaces and the first record's `{`. It reads back as no prompts exactly when there are none. |
| DataSection.DataSectionRoundTrip | src/lib/utils.ts:80-82 | As written, the data section reads back as every prompt's fields, in order. The one exception: each line break inside a content comes back followed by eight spaces. |
| DataSection.MultilineContentIndented | src/lib/utils.ts:81 | The content `a\nb` comes back from the section as written as `a\n        b`. From the corrected section it comes back unchanged. |
| DataSection.IntendedDataSectionRoundTrip | src/lib/utils.ts:80-82 | The corrected section indents only the record's own line breaks. It reads back as exactly the prompts' fields, in order. The empty list gives the placeholder, which reads back as no prompts. |
| DataSection.SingleLineContentUnchanged | src/lib/utils.ts:80-82 | When no content has a line break, the section as written equals the corrected one and reads back exactly. |
| DataSection.PlaceholderIsNoRecord | src/lib/utils.ts:82 | The placeholder comment differs from the corrected data section of every non-empty list, so reading cannot confuse the two. |
| DataSection.ScriptVersion | src/lib/utils.ts:84 | The version is the first ten characters of the ISO time, with every `-` turned into `.` and every other character kept. |
| DataSection.ScriptVersionOfIsoDate | src/lib/utils.ts:84 | For an ISO timestamp the version is year, month and day joined by dots. |
| ModalStack.Hide | src/lib/utils.ts:254-262 | Without an overlay nothing changes. Otherwise the overlay is hidden, and the first occurrence of the id is cut out of the stack while the order of the rest is kept. The current modal becomes the new top of the stack, or none. |
| ModalStack.HideValid | src/lib/utils.ts:254-262 | Hiding keeps the stack free of duplicates, keeps current equal to the top, and keeps every stacked modal displayed. Afterwards the id is neither on the stack nor current. |
| ModalStack.Display | src/lib/utils.ts:245-252 | With an overlay, the modal is made current and added to the shown set. The stack is kept as it was when the modal is already on it; otherwise the modal is pushed on top. Without an overlay nothing changes. |
| ModalStack.FindPrimary | src/lib/utils.ts:242 | `find` returns the first stacked modal whose z-index does not mark it as a sub-modal: every modal below it in the stack has an overlay and is marked. A missing overlay is reported at the first modal that lacks one, with every earlier modal marked. The result "none" means every stacked modal is marked. |
| ModalStack.CloseForShow | src/lib/utils.ts:241-244 | With an empty stack, or when the new modal is a sub-modal, nothing is closed. Otherwise the result is either the state unchanged, or the state with exactly the modal `find` returned hidden, when that modal differs from the new one. Closing only removes stacked modals. |
| ModalStack.Show | src/lib/utils.ts:240-253 | With an empty stack this is `Display`. When the call does not throw and the overlay exists, the modal ends up current and on the stack. A modal that was not stacked ends up on top. Every stacked modal survives except the one primary modal `find` returns. Nothing but the new modal joins the stack. |
| ModalStack.HideKeepsOthers | src/lib/utils.ts:256-259 | Hiding one modal keeps every other stacked modal on the stack. |
| ModalStack.ShowValid | src/lib/utils.ts:240-253 | Showing keeps the stack free of duplicates, keeps current equal to a stacked modal, and keeps every stacked modal displayed. |
| ModalStack.ShowCompletes | src/lib/utils.ts:240-253 | When every stacked modal and the new one have overlays, `showModal` does not throw. |
| ModalStack.HideUndoesDisplay | src/lib/utils.ts:245-262 | Hiding a modal that was just displayed restores the stack and makes the previous top current again. |
| ModalStack.SubModalStacks | src/lib/utils.ts:241-249 | A modal marked as a sub-modal is pushed above the stack and closes nothing. |
| ModalStack.PrimaryReplacesPrimary | src/lib/utils.ts:241-249 | A primary modal opened over another primary modal closes it: the new one is then the only modal on the stack. |
| ModalStack.EmptyIdStays | src/lib/utils.ts:243 | A primary modal with the empty id is not closed, because `mTC` tests false. The new modal stacks above it. |
| ModalStack.ShowTwice | src/lib/utils.ts:248 | Showing the same modal twice is the same as showing it once. |
| ModalStack.DecimalText | src/lib/utils.ts:214 | `toString` of a number is a string of decimal digits with no leading zero that denotes the number. Its last digit is the number modulo ten. |
| ModalStack.ZIndex | src/lib/utils.ts:211-214 | The z-index is a string of decimal digits. It denotes the base z-index 10001 for a modal, and the base plus the number of open modals plus one for a sub-modal. |
| ModalStack.MarkedSubModalIff | src/lib/utils.ts:213-214 | The "ends in 2" test recognises a sub-modal exactly when it was created while the number of open modals was a multiple of ten. It never recognises a modal that is not a sub-modal. |
| ModalStack.PreviewClosesList | src/lib/utils.ts:344-380 | As written, opening a prompt preview from the list modal closes the list modal. The preview is left as the only modal. |
| ModalStack.PreviewStacksOnList | src/lib/utils.ts:344-380 | With the overlays marked by the `isSubModal` flag that `createModal` is given, the preview stacks above the list modal. |
| CategoryStyle.PaletteDistinct | src/components/prompts/PromptCard.tsx:31-42 | There are ten styles, and no two share a card class. |
| CategoryStyle.Units | src/components/prompts/PromptCard.tsx:50 | `charCodeAt` sees one UTF-16 unit for a BMP character and a surrogate pair for any other. |
| CategoryStyle.UnitsDecode | src/components/prompts/PromptCard.tsx:50 | A surrogate pair decodes back to its character. |
| CategoryStyle.HashStepAgrees | src/components/prompts/PromptCard.tsx:51-52 | `(hash << 5) - hash + char` followed by `hash \|= 0` is `31 * hash + char`, wrapped to a signed 32-bit integer. |
| CategoryStyle.HashOf | src/components/prompts/PromptCard.tsx:48-53 | After each step's conversion to a 32-bit integer (line 52), the hash is a signed 32-bit integer. |
| CategoryStyle.HashIsPolynomial | src/components/prompts/PromptCard.tsx:48-53 | The wrapped step-by-step hash equals the wrap of the polynomial: the sum of unit k times 31 to the power (n-1-k). |
| CategoryStyle.CategoryHash | src/components/prompts/PromptCard.tsx:48-53 | The loop over the name's UTF-16 units computes the step-by-step hash. |
| CategoryStyle.MostNegativeHash | src/components/prompts/PromptCard.tsx:54 | For the hash -2^31, `Math.abs` is 2^31 in a double, so the style index is 8 and never negative. |
| CategoryStyle.StyleIndex | src/components/prompts/PromptCard.tsx:54 | `Math.abs(hash) % categoryStyles.length` is a valid palette index: the absolute value of the hash modulo ten. |
| CategoryStyle.GetCategoryStyle | src/components/prompts/PromptCard.tsx:44-56 | A style is returned exactly when the category is present and not all whitespace. The style is the palette entry at the polynomial hash of the name's UTF-16 units, wrapped to 32 bits, taken in absolute value modulo ten. |
| CategoryStyle.SingleCharacterStyle | src/components/prompts/PromptCard.tsx:44-56 | A one-character BMP name that is not whitespace gets the style at its code modulo ten. |
| CategoryStyle.CaseMatters | src/components/prompts/PromptCard.tsx:44-56 | An upper-case letter and its lower-case form get different styles: the hash is case-sensitive. |
| CategoryStyle.CardClass | src/components/prompts/PromptCard.tsx:74-77 | A styled category gives the card class of the style `getCategoryStyle` picks, one of the palette's card classes. A category without a style gives the neutral `bg-card dark:bg-card`. |
| CategoryStyle.BadgeOf | src/components/prompts/PromptCard.tsx:81-88 | A badge appears exactly when the category is present and not empty, and it shows the category. A styled category gets the style's badge class and no variant. A category without a style gets no extra class and the `secondary` variant. |
| CategoryStyle.BlankCategoryUnstyled | src/components/prompts/PromptCard.tsx:44-88 | A category of spaces has no style. It gets the default card, yet still shows a `secondary` badge. |
| PromptTypes.ParseTypeName | src/types/index.ts:2 | Reading a type name gives the type that writes that name, and fails only for text that is no type name. |
| PromptTypes.TypeNameInjective | src/types/index.ts:2 | Distinct types have distinct names. |
| PromptTypes.PromptTypesTableIsBijective | src/types/index.ts:14-18 | `PROMPT_TYPES` has the keys SYSTEM, APP_STARTER and QUICK_ACTION, and maps them one-to-one onto the three types. |
| PromptTypes.DisplayNamesDistinct | src/types/index.ts:26-30 | The three display names differ from each other. |
| PromptTypes.TemplateOf | src/types/index.ts:20-24 | Each template names its own type. Only the quick-action template has no category field; the other two carry an empty one. |
| PromptStore.UserChanged | src/hooks/usePrompts.ts:21-46 | With or without a signed-in user, the effect empties the list and marks it loaded. The "needs update" flag is left alone. |
| PromptStore.WithIdDataOf | src/hooks/usePrompts.ts:70 | Adding an id to prompt data and taking the data back are inverse. |
| PromptStore.Add | src/hooks/usePrompts.ts:48-74 | Without a user nothing changes and nothing is returned. With one, the new prompt, carrying the data and the fresh id, is appended and returned, and the script is marked out of date. |
| PromptStore.Update | src/hooks/usePrompts.ts:76-96 | Without a user or id nothing changes. Otherwise every prompt with the id is replaced, each one in its own place. |
| PromptStore.ReplaceById | src/hooks/usePrompts.ts:94 | The list keeps its length. Each prompt with the updated id is replaced by the updated prompt, and every other prompt stays in its place. |
| PromptStore.UpdateKeepsIds | src/hooks/usePrompts.ts:94 | An update leaves the sequence of ids as it was. |
| PromptStore.UpdateIdempotent | src/hooks/usePrompts.ts:94 | Applying the same update twice is the same as applying it once. |
| PromptStore.UpdateFound | src/hooks/usePrompts.ts:94 | After an update, the list holds the updated prompt exactly when the list before held that prompt or its id. |
| PromptStore.Delete | src/hooks/usePrompts.ts:98-118 | Without a user or id nothing changes. Otherwise the list keeps only prompts with other ids, and the script is marked out of date. |
| PromptStore.DeleteKeepsOthers | src/hooks/usePrompts.ts:116 | Deleting drops every prompt with the id. It keeps every other prompt as often as it occurred, and keeps their order. |
| PromptStore.DeleteUndoesAdd | src/hooks/usePrompts.ts:48-118 | Deleting the prompt just added under a fresh id restores the list. |
| PromptStore.AddKeepsUniqueIds | src/hooks/usePrompts.ts:70-71 | Adding under a fresh id keeps ids unique. |
| PromptStore.DeleteKeepsUniqueIds | src/hooks/usePrompts.ts:116 | Deleting keeps ids unique. |
| PromptStore.ByType | src/hooks/usePrompts.ts:120-122 | The list for a type holds only prompts of that type. It holds every prompt of that type as often as the list does, in the list's order. |
| PromptStore.ByTypePartitions | src/hooks/usePrompts.ts:120-122 | The three per-type lists together hold each prompt exactly as often as the list does. Each is an order-preserving sublist. |
| PromptStore.ByTypeMembers | src/hooks/usePrompts.ts:120-122 | A prompt is in a type's list exactly when it is in the list and has that type. |
| PromptForm.OpenEffect | src/components/prompts/PromptFormDialog.tsx:53-70 | On open, an existing prompt's title, type, content and category (empty when absent) are loaded. A new prompt gets an empty quick-action form. The category is shown exactly for types other than quick action. |
| PromptForm.Open | src/components/prompts/PromptFormDialog.tsx:53-79 | After opening, the category is shown exactly for types other than quick action. A new prompt opens as a blank quick action. An existing prompt's title, type and content are loaded. Its category is loaded unless the effect on `type` cleared it, which happens when a quick action is opened over a form of another type. |
| PromptForm.TypeEffect | src/components/prompts/PromptFormDialog.tsx:73-79 | The category is shown exactly for types other than quick action, and is cleared for a quick action. Nothing else changes. |
| PromptForm.Settle | src/components/prompts/PromptFormDialog.tsx:73-79 | The re-render after a step keeps title, type and content. When the step changed the type, the category is then shown exactly for types other than quick action. When it did not, the step's state stands. |
| PromptForm.ChooseType | src/components/prompts/PromptFormDialog.tsx:73-79 | Choosing a type sets it and runs the type effect. Switching to quick action clears the category; other types keep it. |
| PromptForm.Run | src/components/prompts/PromptFormDialog.tsx:51-79 | Over any sequence of openings, type choices and edits, the category stays shown exactly when the type is not a quick action. |
| PromptForm.OpenQuickAction | src/components/prompts/PromptFormDialog.tsx:53-79 | Opening a quick action hides the category. The stored category is cleared when the type changed, and kept when it did not. |
| PromptForm.SavedCategory | src/components/prompts/PromptFormDialog.tsx:125-130 | A quick action saves no category. Other types save the trimmed category, or none when it is blank. |
| PromptForm.SavedCategoryIdempotent | src/components/prompts/PromptFormDialog.tsx:125-130 | Saving a saved category again changes nothing. |
| PromptForm.Submit | src/components/prompts/PromptFormDialog.tsx:116-138 | The form is rejected exactly when the title or content is blank. Otherwise an existing prompt with an id is replaced under that id, and anything else is created. Both carry the untrimmed title and content and the saved category. |
| PromptForm.EditRoundTrip | src/components/prompts/PromptFormDialog.tsx:53-138 | Opening a prompt and saving it unchanged gives back the same prompt under its id, without `copyCount` and `userId`, which the dialog does not carry. |
| PromptForm.NewFormRejected | src/components/prompts/PromptFormDialog.tsx:116-124 | Saving a freshly opened new-prompt form is rejected. |
| PromptForm.NewQuickAction | src/components/prompts/PromptFormDialog.tsx:116-135 | A new form with a title and content creates a quick action without a category. |
| PromptForm.SaveEditUpdatesStore | src/components/prompts/PromptFormDialog.tsx:132-133 | Saving an edit through `updatePrompt` keeps the ids and puts the saved prompt in the list. |
| CategoryList.UniqueCategoriesMembers | src/components/prompts/PromptFormDialog.tsx:46-48 | The category list has no duplicates. It holds exactly the non-empty categories of the prompts it is given. |
| CategoryList.RenderCategory | src/components/prompts/PromptFormDialog.tsx:187-198 | The field is hidden exactly when the category is not shown. When shown, it throws exactly when the hook lacks `getUniqueCategories`. Otherwise it offers exactly the categories of the prompts it is given. |
| CategoryList.ShownCategoryThrows | src/components/prompts/PromptFormDialog.tsx:187-198 | As written, the category field throws whenever it is shown. That happens on opening any prompt that is not a quick action, and on choosing such a type. |
| CategoryList.FirstRenderThrows | src/components/prompts/PromptFormDialog.tsx:46-51 | As written, the dialog's initial state shows the category, so the field throws on the dialog's first render. That is the workspace's first render after prompts and preferences have loaded. |
| CategoryList.StoredCategoryNotOffered | src/components/prompts/PromptFormDialog.tsx:187-198 | When the member exists and the dialog is given the workspace's prompts, every stored category is offered. Typing one with surrounding whitespace offers no duplicate to create. |
| CategoryList.OwnInstanceOffersNothing | src/hooks/usePrompts.ts:13-44 | The dialog's own hook instance starts with no prompts, and its user effect empties the list again. With the member added, the field would still offer no category. |
| Combobox.LowerEqual | src/components/ui/creatable-combobox.tsx:46 | The lower-cased comparison holds exactly when the texts agree up to letter case. |
| Combobox.AnyLabelMatches | src/components/ui/creatable-combobox.tsx:45-47 | The loop finds a match exactly when some option's label equals the query up to case. |
| Combobox.ShowCreateOption | src/components/ui/creatable-combobox.tsx:43-47 | "Create" is offered exactly when the trimmed search is not empty and no label matches it up to case. |
| Combobox.ExistingLabelNotOffered | src/components/ui/creatable-combobox.tsx:43-47 | Typing an existing trimmed label, with any whitespace around it, never offers "create". |
| Combobox.Select | src/components/ui/creatable-combobox.tsx:38-41 | Selecting passes the chosen value on and closes the popover. The search is left as it was. |
| Combobox.OpenChange | src/components/ui/creatable-combobox.tsx:50-54 | Opening keeps the search, and closing clears it. |
| Combobox.ReopenedOffersNothing | src/components/ui/creatable-combobox.tsx:35-54 | Closing and reopening always starts with an empty search. From the initial closed state, opening, typing, dismissing and reopening offers nothing to create. |
| Combobox.SelectKeepsSearch | src/components/ui/creatable-combobox.tsx:35-54 | `handleSelect` closes the popover without going through `onOpenChange`, so the search is not cleared. Reopening after a selection shows the last search, and "create" is offered exactly as before the selection. |
| Text.Trim | src/components/ui/creatable-combobox.tsx:44 | The trimmed text neither starts nor ends with whitespace. It is a slice of the input with only whitespace around it, and it is empty exactly when the input is all whitespace. |
| Text.TrimIdempotent | src/components/prompts/PromptFormDialog.tsx:125 | Trimming twice is trimming once. |
| Text.TrimPadded | src/components/ui/creatable-combobox.tsx:44 | Trimming whitespace-padded trimmed text gives that text. |
| Text.ReplaceCharLength | src/lib/utils.ts:52-53 | Each replaced character grows the text by the replacement's length minus one. |
| Seqs.FilterCounts | src/hooks/usePrompts.ts:116 | A filter keeps every kept element as often as it occurred, and drops the rest. |
| Seqs.FilterIsSubsequence | src/hooks/usePrompts.ts:121 | A filter result is an order-preserving sublist of its input. |

## Left out

- Text.ToLower: folds only the ASCII letters A-Z. JavaScript's `toLowerCase` maps all of Unicode, so `É` and `é` count as different here.
- Combobox.ShowCreateOption: compares labels up to ASCII case only, through `Text.ToLower`. Two labels that differ only in non-ASCII case are treated as different, which overstates when "create" is offered.
- Combobox.LowerEqual: the same ASCII-only case folding.
- Escaping.Escape: Dafny strings are sequences of Unicode scalar values. A lone UTF-16 surrogate cannot be represented, and the length formula counts code points, not UTF-16 units.
- CategoryStyle.CodeUnits: this is the only place UTF-16 is modelled. Elsewhere a character is a code point.
- ScriptRecord.RecordRoundTrip: requires `Recordable`. No `'`, LF or CR may appear in id, title or category, and no CR in content. A `'` ends the literal early (Findings row 3). A raw line break is a syntax error in a single-quoted literal. A template literal reads a raw CR as LF.
- DataSection.DataSectionRoundTrip: requires `AllRecordable`, for the same reasons.
- DataSection.IntendedDataSectionRoundTrip: requires `AllRecordable`, for the same reasons.
- Escaping.EscapeRoundTrip: requires `SafeFor`, for the same reasons.
- Only the data section and the version of `generateTampermonkeyScript` are modelled. Left out are the userscript header, the `toLocaleString` "last updated" text, the embedded client runtime other than `showModal`/`hideModal`, the templates spliced into it, the edit URL and the bootstrap guard. They are fixed text, or depend on locale and clock.
- ModalStack.ZIndex: the base is the 10001 that the script's own style sheet gives `--ph-modal-z-index` (utils.ts:385-386). A page style that overrode the variable is not modelled.
- ModalStack.Show: the page is reduced to a map from overlay id to "its z-index ends in 2". Left out are the DOM that `createModal` builds, focus handling, click handlers, and reading `--ph-modal-z-index` from computed style (taken as 10001). A missing overlay whose style is read becomes `None` rather than a thrown TypeError.
- PromptStore.Add: `generateId` depends on the clock and `Math.random`, so the fresh id is a parameter. The id generated at usePrompts.ts:54 is never used and is not modelled. The functions are `async`; the model returns their results directly.
- PromptStore.UserChanged: `setIsLoaded(false)` followed at once by `setIsLoaded(true)` is one step. The Firestore fetch is commented out in the code.
- React state and effects are explicit transitions: `PromptForm.OpenEffect`, `PromptForm.TypeEffect` and `PromptForm.Settle`. Opening runs the open effect, then the type effect when the type changed. Render batching and scheduling are not modelled.
- Combobox.Select: cmdk may normalise the item value it passes to `onSelect`; the model passes the value unchanged.
- CategoryList.RenderCategory: its `ps` stands for the workspace's list of prompts. The dialog's own `usePrompts()` instance (PromptFormDialog.tsx:46) is a separate hook state that holds no prompts: no add, update or delete goes through it (usePrompts.ts:13, 38, 42). So the corrected half also assumes that the workspace's list is passed to the dialog.
- CategoryList.UniqueCategories: the hook has no such member. The list is the distinct non-empty categories in order of first occurrence, an assumption about what was intended.
- CategoryStyle.CardClass: gives only the category-specific class. The fixed layout classes joined by `cn` are not modelled.
- PromptTypes.TemplateOf: states the templates' fields. It does not prove that the rendered text `TemplateText` equals the string constants character for character.
- Left out for lack of logic to verify: `handleSuggestName` and the AI flow, toasts, `console.error`, clipboard copying and `copyCount`.

## Findings

| source | as written | input that shows it | evidently intended | confidence | as-written member | corrected member |
|---|---|---|---|---|---|---|
| src/lib/utils.ts:81 | `.replace(/\n/g, '\n        ')` runs over the whole record text, so it also indents line breaks inside the escaped content of the template literal. | A prompt with content `a\nb`: the script's copy reads `a\n        b`. | Indent only the record's own line breaks, so that every content reads back unchanged. | not executed | DataSection.MultilineContentIndented | DataSection.IntendedDataSectionRoundTrip |
| src/lib/utils.ts:214 | A sub-modal's z-index is `10001 + openModalsStack.length + 1`. `showModal` (lines 241-243) treats a modal as a sub-modal only when the z-index ends in `2`. | The preview opened from the list modal gets z-index 10003. It is not recognised, so the list modal is closed. | Previews stack above the list modal, as `isSubModal: true` asks. | not executed | ModalStack.PreviewClosesList | ModalStack.PreviewStacksOnList |
| src/lib/utils.ts:59-63 | id, type, title and category go between single quotes, but `escapePromptContentForScript` does not escape `'`. | The title `it's`: the literal ends after `it`, and `s'` is read as code. | Escape `'` in single-quoted fields, so every value without a line break reads back exactly. | not executed | Escaping.ApostropheEndsLiteral | Escaping.SingleQuotedRoundTrip |
| src/components/prompts/PromptFormDialog.tsx:46-48 | The dialog takes `getUniqueCategories` from `usePrompts()`, but the hook (usePrompts.ts:124-133) returns no such member. `uniqueCategories.map` at line 196 is then a call on `undefined`. | None needed. `showCategory` starts as `true` (line 51). While prompts and preferences load, `PromptWorkspace` shows a skeleton (PromptWorkspace.tsx:53-87). On its first render after both have loaded, it renders the dialog (PromptWorkspace.tsx:130-135). The props of `CreatableCombobox` are evaluated while the dialog's element tree is built, even when the dialog is closed. So that render throws, before any prompt can be opened. | The workspace's list of prompts reaches the dialog, by a prop or a shared context. The dialog offers the distinct categories of that list. Exposing `getUniqueCategories` from the hook is not enough on its own, because the dialog's own `usePrompts()` call holds an empty list (`CategoryList.OwnInstanceOffersNothing`). | not executed | CategoryList.FirstRenderThrows | CategoryList.StoredCategoryNotOffered |

=== FILE: categorylist.dfy ===
/** The category options of the prompt editor (src/components/prompts/PromptFormDialog.tsx):
    the dialog destructures `getUniqueCategories` from `usePrompts()` and, while the category
    field is shown, passes `uniqueCategories.map(...)` to the combobox. The object the hook
    returns (src/hooks/usePrompts.ts) has no such member, so the lookup yields `undefined` and
    the `map` throws. `UniqueCategories` is the list the dialog evidently expects: the
    distinct non-empty categories of the prompts it is given, in the order they first occur.
    Those prompts stand for the workspace's list; the dialog's own hook instance holds none. */
module CategoryList {
  import opened Options
  import opened Text
  import opened PromptTypes
  import opened PromptStore
  import opened PromptForm
  import opened Combobox

  /** The members of the object `usePrompts` returns. */
  const HookMembers: set<string> :=
    {"prompts", "addPrompt", "updatePrompt", "deletePrompt", "getPromptsByType", "isLoaded",
     "needsUpdate", "setNeedsUpdate"}

  /** The same object with the member the dialog reads. */
  const IntendedMembers: set<string> := HookMembers + {"getUniqueCategories"}

  /** The categories a prompt list names: present and not empty. */
  function Categories(ps: seq<Prompt>): set<string> {
    set i | 0 <= i < |ps| && ps[i].category.Some? && ps[i].category.value != [] :: ps[i].category.value
  }

  /** Each category of `ps` once, in the order of first occurrence. */
  function UniqueCategories(ps: seq<Prompt>): (r: seq<string>)
    ensures forall i, j :: 0 <= i < j < |r| ==> r[i] != r[j]
    decreases |ps|
  {
    if ps == [] then []
    else
      var r := UniqueCategories(ps[..|ps| - 1]);
      var c := ps[|ps| - 1].category;
      if c.Some? && c.value != [] && c.value !in r then r + [c.value] else r
  }

  /** The list holds exactly the categories of the prompts. */
  lemma {:induction false} UniqueCategoriesMembers(ps: seq<Prompt>)
    ensures forall c :: c in UniqueCategories(ps) <==> c in Categories(ps)
    decreases |ps|
  {
    if ps != [] {
      var init := ps[..|ps| - 1];
      UniqueCategoriesMembers(init);
      var p := ps[|ps| - 1];
      assert forall i :: 0 <= i < |init| ==> init[i] == ps[i];
      var extra := if p.category.Some? && p.category.value != [] then {p.category.value} else {};
      assert Categories(ps) == Categories(init) + extra by {
        forall c | c in Categories(ps) ensures c in Categories(init) + extra {
          var i :| 0 <= i < |ps| && ps[i].category.Some? && ps[i].category.value != [] && ps[i].category.value == c;
          if i < |init| {
            assert init[i] == ps[i];
          }
        }
      }
    }
  }

  /** The category field as the dialog renders it: not rendered, throwing, or offering
      options to the combobox. */
  datatype CategoryField = Hidden | Throws | Offers(options: seq<ComboOption>)

  /** One option per category, labelled with the category itself. */
  function OptionsOf(categories: seq<string>): (r: seq<ComboOption>)
    ensures |r| == |categories|
    ensures forall i :: 0 <= i < |r| ==> r[i] == ComboOption(categories[i], categories[i])
  {
    seq(|categories|, i requires 0 <= i < |categories| => ComboOption(categories[i], categories[i]))
  }

  /** The category block of the dialog, for a hook that returns the given members. */
  function RenderCategory(f: Form, members: set<string>, ps: seq<Prompt>): (r: CategoryField)
    ensures !f.showCategory <==> r.Hidden?
    ensures f.showCategory ==> (r.Throws? <==> "getUniqueCategories" !in members)
    ensures r.Offers? ==> forall c :: (exists i :: 0 <= i < |r.options| && r.options[i].caption == c) <==> c in Categories(ps)
  {
    if !f.showCategory then Hidden
    else if "getUniqueCategories" !in members then Throws
    else
      var cs := UniqueCategories(ps);
      UniqueCategoriesMembers(ps);
      var options := OptionsOf(cs);
      assert forall c :: (exists i :: 0 <= i < |options| && options[i].caption == c) <==> c in cs by {
        forall c ensures (exists i :: 0 <= i < |options| && options[i].caption == c) <==> c in cs {
          if c in cs {
            var i :| 0 <= i < |cs| && cs[i] == c;
            assert options[i].caption == c;
          }
        }
      }
      Offers(options)
  }

  /** As written, the category field throws whenever it is shown: opening any prompt that is
      not a quick action, or picking such a type, breaks the dialog. */
  lemma ShownCategoryThrows(f: Form, ps: seq<Prompt>, p: Prompt, t: PromptType)
    requires ShowsCategoryByType(f)
    ensures f.showCategory ==> RenderCategory(f, HookMembers, ps) == Throws
    ensures p.kind != QuickAction ==> RenderCategory(Open(f, Some(p)), HookMembers, ps) == Throws
    ensures t != QuickAction ==> RenderCategory(ChooseType(f, t), HookMembers, ps) == Throws
  {
    assert "getUniqueCategories" !in HookMembers;
  }

  /** The dialog starts with the category shown, and its element tree, the combobox's props
      included, is built on every render of the dialog, open or not. `PromptWorkspace`
      renders the dialog from its first render after prompts and preferences have loaded
      (src/components/prompts/PromptWorkspace.tsx:53), so as written that render throws,
      before any prompt can be opened. */
  lemma FirstRenderThrows(ps: seq<Prompt>)
    ensures Fresh.showCategory && ShowsCategoryByType(Fresh)
    ensures RenderCategory(Fresh, HookMembers, ps) == Throws
  {
  }

  /** The dialog's own `usePrompts()` call is a second hook instance: its list starts empty,
      its user effect empties it again, and no add, update or delete goes through it. So
      adding the member to the hook alone still offers no stored category; the workspace's
      list has to reach the dialog. */
  lemma OwnInstanceOffersNothing(f: Form, s: Store, uid: Option<string>)
    requires f.showCategory
    ensures RenderCategory(f, IntendedMembers, Initial.prompts) == Offers([])
    ensures RenderCategory(f, IntendedMembers, UserChanged(s, uid).prompts) == Offers([])
  {
  }

  /** With the member the dialog reads, every stored category is on offer, and typing one
      (with surrounding whitespace) offers no duplicate to create. */
  lemma StoredCategoryNotOffered(f: Form, ps: seq<Prompt>, k: nat, before: string, after: string)
    requires f.showCategory && k < |ps|
    requires ps[k].category.Some? && ps[k].category.value != [] && Trimmed(ps[k].category.value)
    requires AllWhitespace(before) && AllWhitespace(after)
    ensures RenderCategory(f, IntendedMembers, ps).Offers?
    ensures !OffersCreate(RenderCategory(f, IntendedMembers, ps).options, before + ps[k].category.value + after)
  {
    var c := ps[k].category.value;
    assert c in Categories(ps);
    var field := RenderCategory(f, IntendedMembers, ps);
    var j :| 0 <= j < |field.options| && field.options[j].caption == c;
    ExistingLabelNotOffered(field.options, j, before, after);
  }
}

=== FILE: categorystyle.dfy ===
/** `getCategoryStyle` and the palette of src/components/prompts/PromptCard.tsx: a category
    name is hashed over its UTF-16 code units with 32-bit wrap-around, and the hash picks
    one of ten colour styles. The card and badge classes of a prompt card follow from it. */
module CategoryStyle {
  import opened Options
  import opened Text

  datatype Style = Style(card: string, badge: string)

  /** One palette entry: every entry applies the same Tailwind shades to its colour. */
  function StyleOf(c: string): Style {
    Style("bg-" + (c + CardShades(c)),
      "bg-" + c + "-100 text-" + c + "-800 border-" + c + "-200 dark:bg-" + c + "-800 dark:text-"
        + c + "-100 dark:border-" + c + "-700")
  }

  /** The card classes after `bg-<colour>`. */
  function CardShades(c: string): string {
    "-50 border-" + c + "-200 hover:border-" + c + "-300 dark:bg-" + c + "-900/30 dark:border-"
      + c + "-700 dark:hover:border-" + c + "-600"
  }

  const Colours: seq<string> :=
    ["sky", "emerald", "amber", "rose", "violet", "pink", "teal", "fuchsia", "indigo", "lime"]

  /** `categoryStyles`, in order. */
  const Palette: seq<Style> := [
    StyleOf("sky"), StyleOf("emerald"), StyleOf("amber"), StyleOf("rose"), StyleOf("violet"),
    StyleOf("pink"), StyleOf("teal"), StyleOf("fuchsia"), StyleOf("indigo"), StyleOf("lime")]

  /** The ten styles are told apart by the first letter of their colour, which the card class
      carries right after `bg-`. */
  lemma PaletteDistinct()
    ensures |Palette| == 10
    ensures forall i, j :: 0 <= i < j < |Palette| ==> Palette[i].card != Palette[j].card
  {
    forall i | 0 <= i < |Palette| ensures Palette[i].card[3] == Initials[i] {
      ColourInitial(i);
      CardInitial(Colours[i]);
    }
    InitialsDistinct();
  }

  lemma InitialsDistinct()
    ensures forall i, j :: 0 <= i < j < |Initials| ==> Initials[i] != Initials[j]
  {
  }

  /** The first letters of the colours, in palette order: no two alike. */
  const Initials: string := "searvptfil"

  lemma ColourInitial(i: nat)
    requires i < |Colours|
    ensures Colours[i] != [] && Colours[i][0] == Initials[i] && Palette[i] == StyleOf(Colours[i])
  {
  }

  lemma CardInitial(c: string)
    requires c != []
    ensures StyleOf(c).card[3] == c[0]
  {
    assert ("bg-" + (c + CardShades(c)))[3] == (c + CardShades(c))[0];
  }

  // ---------------------------------------------------------------------------------------
  // Code units and 32-bit arithmetic

  const Two31: int := 0x8000_0000
  const Two32: int := 0x1_0000_0000

  /** The UTF-16 code units of one character: itself below U+10000, else a surrogate pair. */
  function Units(c: char): (r: seq<int>)
    ensures |r| == (if c as int < 0x1_0000 then 1 else 2)
    ensures forall k :: 0 <= k < |r| ==> 0 <= r[k] < 0x1_0000
    ensures |r| == 2 ==> 0xD800 <= r[0] < 0xDC00 <= r[1] < 0xE000
  {
    if c as int < 0x1_0000 then [c as int]
    else
      var v := c as int - 0x1_0000;
      [0xD800 + v / 0x400, 0xDC00 + v % 0x400]
  }

  /** Decoding a surrogate pair gives the character back. */
  lemma UnitsDecode(c: char)
    requires c as int >= 0x1_0000
    ensures 0x1_0000 + (Units(c)[0] - 0xD800) * 0x400 + (Units(c)[1] - 0xDC00) == c as int
  {
  }

  /** `s.charCodeAt(0)`, `s.charCodeAt(1)`, ...: the string as JavaScript indexes it. */
  function CodeUnits(s: string): (r: seq<int>)
    ensures |r| >= |s|
    ensures forall k :: 0 <= k < |r| ==> 0 <= r[k] < 0x1_0000
  {
    if s == [] then [] else Units(s[0]) + CodeUnits(s[1..])
  }

  /** `x | 0`: the 32-bit two's complement integer congruent to `x`. */
  function Int32(x: int): (r: int)
    ensures -Two31 <= r < Two31
    ensures -Two31 <= x < Two31 ==> r == x
  {
    (x + Two31) % Two32 - Two31
  }

  /** Wrap-around forgets multiples of 2^32. */
  lemma Int32Congruent(x: int, k: int)
    ensures Int32(x + k * Two32) == Int32(x)
  {
    var a := x + Two31;
    assert (a + k * Two32) % Two32 == a % Two32 by {
      var q := a / Two32;
      assert a == q * Two32 + a % Two32;
      assert a + k * Two32 == (q + k) * Two32 + a % Two32;
    }
  }

  /** `Int32(x)` differs from `x` by a multiple of 2^32. */
  lemma Int32Offset(x: int)
    ensures Int32(x) == x - ((x + Two31) / Two32) * Two32
  {
  }

  /** One step of the loop, as written: `hash = (hash << 5) - hash + char; hash |= 0`. The
      shift itself wraps to 32 bits. */
  function HashStep(h: int, u: int): int {
    Int32(Int32(h * 32) - h + u)
  }

  /** The step the loop computes: multiply by 31, add the code unit, wrap. */
  function HashOf(units: seq<int>): (r: int)
    ensures -Two31 <= r < Two31
  {
    if units == [] then 0 else Int32(31 * HashOf(units[..|units| - 1]) + units[|units| - 1])
  }

  /** The hash without wrap-around: the code units read as a number in base 31. */
  function Polynomial(units: seq<int>): int {
    if units == [] then 0 else 31 * Polynomial(units[..|units| - 1]) + units[|units| - 1]
  }

  lemma HashStepAgrees(h: int, u: int)
    ensures HashStep(h, u) == Int32(31 * h + u)
  {
    var k := -((h * 32 + Two31) / Two32);
    Int32Offset(h * 32);
    assert Int32(h * 32) - h + u == (31 * h + u) + k * Two32;
    Int32Congruent(31 * h + u, k);
  }

  /** The wrapped hash is the base-31 value of the code units, wrapped once at the end. */
  lemma {:induction false} HashIsPolynomial(units: seq<int>)
    ensures HashOf(units) == Int32(Polynomial(units))
  {
    if units != [] {
      var p := units[..|units| - 1];
      var u := units[|units| - 1];
      HashIsPolynomial(p);
      var k := -((Polynomial(p) + Two31) / Two32);
      Int32Offset(Polynomial(p));
      assert 31 * HashOf(p) + u == Polynomial(units) + (31 * k) * Two32;
      Int32Congruent(Polynomial(units), 31 * k);
    }
  }

  /** The loop of `getCategoryStyle` over the name's code units. */
  method CategoryHash(name: string) returns (h: int)
    ensures h == HashOf(CodeUnits(name))
  {
    var units := CodeUnits(name);
    h := 0;
    var i := 0;
    while i < |units|
      invariant 0 <= i <= |units|
      invariant h == HashOf(units[..i])
    {
      HashStepAgrees(h, units[i]);
      assert units[..i + 1][..i] == units[..i];
      h := HashStep(h, units[i]);
      i := i + 1;
    }
    assert units[..|units|] == units;
  }

  /** `Math.abs(hash) % categoryStyles.length`. */
  function StyleIndex(h: int): (r: nat)
    ensures r < |Palette|
    ensures r == (if h < 0 then -h else h) % 10
  {
    (if h < 0 then -h else h) % |Palette|
  }

  /** The most negative hash has no 32-bit absolute value; as a JavaScript number it still
      picks a style. */
  lemma MostNegativeHash()
    ensures StyleIndex(-Two31) == 8
  {
  }

  // ---------------------------------------------------------------------------------------
  // Styles of a prompt card

  /** A category that names a style: present and not only whitespace. */
  predicate Styled(category: Option<string>) {
    category.Some? && !AllWhitespace(category.value)
  }

  /** `getCategoryStyle`: no style for a missing, empty or blank name; otherwise the palette
      entry picked by the name's code units read in base 31, wrapped once to 32 bits. */
  function GetCategoryStyle(category: Option<string>): (r: Option<Style>)
    ensures r.Some? <==> Styled(category)
    ensures r.Some? ==> r.value in Palette
    ensures r.Some? ==> r.value == Palette[StyleIndex(Int32(Polynomial(CodeUnits(category.value))))]
  {
    if category.None? || category.value == [] || Trim(category.value) == [] then None
    else
      HashIsPolynomial(CodeUnits(category.value));
      Some(Palette[StyleIndex(HashOf(CodeUnits(category.value)))])
  }

  /** The style's card class, or the neutral card class. */
  function CardClass(category: Option<string>): (r: string)
    ensures Styled(category) ==> r in set s | s in Palette :: s.card
    ensures Styled(category) ==> r == GetCategoryStyle(category).value.card
    ensures !Styled(category) ==> r == "bg-card dark:bg-card"
  {
    match GetCategoryStyle(category)
    case Some(style) => style.card
    case None => "bg-card dark:bg-card"
  }

  /** The category badge: extra classes, the variant, and the text it shows. */
  datatype Badge = Badge(extraClass: string, variant: Option<string>, text: string)

  /** The badge is shown for every non-empty category; it is styled by the palette when the
      category names a style and uses the `secondary` variant otherwise. */
  function BadgeOf(category: Option<string>): (r: Option<Badge>)
    ensures r.Some? <==> category.Some? && category.value != []
    ensures r.Some? ==> r.value.text == category.value
    ensures r.Some? ==> (r.value.variant == Some("secondary") <==> !Styled(category))
    ensures r.Some? && Styled(category) ==> r.value == Badge(GetCategoryStyle(category).value.badge, None, category.value)
    ensures r.Some? && !Styled(category) ==> r.value == Badge("", Some("secondary"), category.value)
  {
    if category.None? || category.value == [] then None
    else
      match GetCategoryStyle(category)
      case Some(style) => Some(Badge(style.badge, None, category.value))
      case None => Some(Badge("", Some("secondary"), category.value))
  }

  /** A category of spaces only is shown as an unstyled badge on a neutral card. */
  lemma BlankCategoryUnstyled(n: nat)
    requires n > 0
    ensures var c := Some(seq(n, _ => ' '));
      && CardClass(c) == "bg-card dark:bg-card"
      && BadgeOf(c) == Some(Badge("", Some("secondary"), seq(n, _ => ' ')))
  {
    var s := seq(n, _ => ' ');
    assert !Styled(Some(s)) by {
      assert forall i :: 0 <= i < |s| ==> IsWhitespace(s[i]);
    }
  }

  /** A one-character name below U+10000 that is not whitespace picks the style its code
      unit gives modulo ten. */
  lemma SingleCharacterStyle(c: char)
    requires c as int < 0x1_0000 && !IsWhitespace(c)
    ensures GetCategoryStyle(Some([c])) == Some(Palette[(c as int) % 10])
  {
    assert !AllWhitespace([c]) by { assert [c][0] == c; }
    assert CodeUnits([c]) == [c as int] by { assert [c][1..] == []; }
    assert HashOf([c as int]) == c as int by { assert [c as int][..0] == []; }
  }

  /** The style depends on the exact code units: a one-letter category and its lower-case
      form always fall on different styles, since their code units differ by 32. */
  lemma CaseMatters(c: char)
    requires 'A' <= c <= 'Z'
    ensures GetCategoryStyle(Some([c])) != GetCategoryStyle(Some([LowerChar(c)]))
  {
    var d := LowerChar(c);
    assert d as int == c as int + 32 && 'a' <= d <= 'z';
    LettersApart(c, d);
  }

  /** Two single letters 32 code units apart pick different styles. */
  lemma LettersApart(c: char, d: char)
    requires 'A' <= c <= 'Z' && 'a' <= d <= 'z' && d as int == c as int + 32
    ensures GetCategoryStyle(Some([c])) != GetCategoryStyle(Some([d]))
  {
    DigitsDiffer(c, d);
    LetterStyle(c);
    LetterStyle(d);
    PaletteEntriesDiffer((c as int) % 10, (d as int) % 10);
  }

  /** A one-letter ASCII category picks the style its code modulo ten names. */
  lemma LetterStyle(c: char)
    requires 'A' <= c <= 'Z' || 'a' <= c <= 'z'
    ensures GetCategoryStyle(Some([c])) == Some(Palette[(c as int) % 10])
  {
    SingleCharacterStyle(c);
  }

  /** Adding 32 changes the last decimal digit. */
  lemma ShiftChangesDigit(x: nat)
    ensures (x + 32) % 10 != x % 10
  {
    var q, i := x / 10, x % 10;
    assert x + 32 == (q + 3) * 10 + (i + 2);
    if i < 8 {
      assert (x + 32) % 10 == i + 2;
    } else {
      assert x + 32 == (q + 4) * 10 + (i - 8);
      assert (x + 32) % 10 == i - 8;
    }
  }

  lemma DigitsDiffer(c: char, d: char)
    requires d as int == c as int + 32
    ensures (c as int) % 10 != (d as int) % 10
  {
    ShiftChangesDigit(c as int);
  }

  lemma PaletteEntriesDiffer(i: nat, j: nat)
    requires i < |Palette| && j < |Palette| && i != j
    ensures Palette[i] != Palette[j]
  {
    PaletteDistinct();
    if j < i {
      assert Palette[j].card != Palette[i].card;
    }
  }
}

=== FILE: combobox.dfy ===
/** The category picker of src/components/ui/creatable-combobox.tsx: a popover with a search
    field over a list of options, which offers to create the searched category when no option
    carries that label, compared without regard to case. */
module Combobox {
  import opened Text

  /** One entry of the list: the value it selects and the label it shows (its `label`). */
  datatype ComboOption = ComboOption(value: string, caption: string)

  /** The component's own state: whether the popover is open, and the search text. */
  datatype Combo = Combo(isOpen: bool, search: string)

  /** The state the component is created with: closed, with an empty search. */
  const Closed: Combo := Combo(false, "")

  /** Two strings are equal once ASCII letters are lower-cased: same length, and letter by
      letter equal up to case. */
  predicate SameIgnoringCase(a: string, b: string) {
    |a| == |b| && forall i :: 0 <= i < |a| ==> LowerChar(a[i]) == LowerChar(b[i])
  }

  /** Comparing lower-cased copies is comparing up to case. */
  lemma ToLowerEqual(a: string, b: string)
    ensures ToLower(a) == ToLower(b) <==> SameIgnoringCase(a, b)
  {
    if SameIgnoringCase(a, b) {
      assert forall i :: 0 <= i < |a| ==> ToLower(a)[i] == ToLower(b)[i];
    }
    if ToLower(a) == ToLower(b) {
      assert forall i :: 0 <= i < |a| ==> ToLower(a)[i] == ToLower(b)[i];
    }
  }

  /** `a.toLowerCase() === b.toLowerCase()` */
  function LowerEqual(a: string, b: string): (r: bool)
    ensures r <==> SameIgnoringCase(a, b)
  {
    ToLowerEqual(a, b);
    ToLower(a) == ToLower(b)
  }

  /** Whether some option's label equals the search up to case. */
  predicate Listed(options: seq<ComboOption>, query: string) {
    exists i :: 0 <= i < |options| && SameIgnoringCase(options[i].caption, query)
  }

  /** `options.some(...)` looking for a label equal to `query` up to case, stopping at the
      first match. */
  method AnyLabelMatches(options: seq<ComboOption>, query: string) returns (found: bool)
    ensures found <==> Listed(options, query)
  {
    var i := 0;
    while i < |options|
      invariant 0 <= i <= |options|
      invariant forall j :: 0 <= j < i ==> !SameIgnoringCase(options[j].caption, query)
    {
      if LowerEqual(options[i].caption, query) {
        return true;
      }
      i := i + 1;
    }
    return false;
  }

  /** When the list offers to create the search as a new category: it is not blank, and no
      label equals it, trimmed, up to case. */
  predicate OffersCreate(options: seq<ComboOption>, search: string) {
    !AllWhitespace(search) && !Listed(options, Trim(search))
  }

  /** `showCreateOption`: trims the search, gives up on an empty result, and otherwise looks
      for a label equal to it up to case. */
  method ShowCreateOption(options: seq<ComboOption>, search: string) returns (show: bool)
    ensures show <==> OffersCreate(options, search)
  {
    var trimmed := Trim(search);
    if trimmed == [] {
      return false;
    }
    var found := AnyLabelMatches(options, trimmed);
    return !found;
  }

  /** Typing into the search field. */
  function Search(c: Combo, text: string): (r: Combo)
    ensures r.search == text && r.isOpen == c.isOpen
  {
    c.(search := text)
  }

  /** `handleSelect`: hands the chosen value to `onChange` and closes the popover directly,
      without going through `onOpenChange`. */
  function Select(c: Combo, chosen: string): (r: (Combo, string))
    ensures !r.0.isOpen && r.1 == chosen
    ensures r.0.search == c.search
  {
    (c.(isOpen := false), chosen)
  }

  /** `onOpenChange`: opening keeps the search text, closing clears it. */
  function OpenChange(c: Combo, isOpen: bool): (r: Combo)
    ensures r.isOpen == isOpen
    ensures isOpen ==> r.search == c.search
    ensures !isOpen ==> r.search == []
  {
    Combo(isOpen, if isOpen then c.search else "")
  }

  /** After the popover is dismissed and opened again, the search is empty and nothing is
      offered for creation, whatever was typed before. */
  lemma ReopenedOffersNothing(c: Combo, options: seq<ComboOption>, text: string)
    ensures OpenChange(OpenChange(c, false), true) == Combo(true, "")
    ensures var d := OpenChange(OpenChange(Search(OpenChange(Closed, true), text), false), true);
      d.search == [] && !OffersCreate(options, d.search)
  {
  }

  /** `handleSelect` closes the popover by setting `open` directly (lines 38-41), so the
      clearing in `onOpenChange` (lines 50-54) does not run. After a selection, opening the
      popover again shows the last search text, and "create" is offered again exactly when
      it was before the selection. */
  lemma SelectKeepsSearch(c: Combo, chosen: string, options: seq<ComboOption>, text: string)
    ensures OpenChange(Select(c, chosen).0, true) == Combo(true, c.search)
    ensures var d := OpenChange(Select(Search(OpenChange(Closed, true), text), chosen).0, true);
      d.search == text && (OffersCreate(options, d.search) <==> OffersCreate(options, text))
  {
  }

  /** A search that equals an option's label up to surrounding whitespace offers no
      creation; the option can be picked instead. */
  lemma ExistingLabelNotOffered(options: seq<ComboOption>, k: nat, before: string, after: string)
    requires k < |options| && options[k].caption != [] && Trimmed(options[k].caption)
    requires AllWhitespace(before) && AllWhitespace(after)
    ensures !OffersCreate(options, before + options[k].caption + after)
  {
    TrimPadded(before, options[k].caption, after);
    assert SameIgnoringCase(options[k].caption, options[k].caption);
  }
}

=== FILE: datasection.dfy ===
/** The data section of `generateTampermonkeyScript` (src/lib/utils.ts): the prompts array
    body written into the generated script, the placeholder comment for an empty list, and the
    script version derived from an ISO date. A reader for the data section states what a
    generated script says about each prompt. */
module DataSection {
  import opened Options
  import opened Text
  import opened PromptTypes
  import opened JsLiterals
  import opened Escaping
  import opened ScriptRecord

  /** The indentation put after every line break of a record. */
  const Pad: string := "        "

  /** What the data section holds when there are no prompts. */
  const Placeholder: string := Pad + "//" + " No prompts defined. Add some in Prompt Amplifier or edit this script!"

  /** Text made only of spaces. */
  predicate Blank(ind: string) {
    forall i :: 0 <= i < |ind| ==> ind[i] == ' '
  }

  /** `s.replace(/\n/g, '\n' + ind)`: every line break is followed by `ind`. */
  function IndentLines(s: string, ind: string): string {
    ReplaceChar(s, '\n', "\n" + ind)
  }

  // ---------------------------------------------------------------------------------------
  // Indenting commutes with escaping

  /** Escaping a character that neither needs a backslash nor opens a `${`. */
  lemma EscapeCharsCons(c: char, x: string)
    requires c != '\\' && c != '`'
    requires c == '$' ==> x == [] || x[0] != '{'
    ensures EscapeChars([c] + x) == [c] + EscapeChars(x)
  {
    assert ([c] + x)[1..] == x;
  }

  /** Spaces pass through escaping unchanged. */
  lemma {:induction false} EscapeBlankPrefix(ind: string, y: string)
    requires Blank(ind)
    ensures EscapeChars(ind + y) == ind + EscapeChars(y)
  {
    if ind != [] {
      assert ind + y == [' '] + (ind[1..] + y);
      assert Blank(ind[1..]) by {
        forall i | 0 <= i < |ind| - 1 ensures ind[1..][i] == ' ' {
          assert ind[1..][i] == ind[i + 1];
        }
      }
      EscapeCharsCons(' ', ind[1..] + y);
      EscapeBlankPrefix(ind[1..], y);
      PrependBlank(ind, EscapeChars(ind[1..] + y), EscapeChars(y));
    } else {
      assert ind + y == y;
    }
  }

  /** Putting back the first space of `ind` in front of the escaped rest. */
  lemma PrependBlank(ind: string, et: string, ey: string)
    requires ind != [] && ind[0] == ' ' && et == ind[1..] + ey
    ensures [' '] + et == ind + ey
  {
    assert ind == [' '] + ind[1..];
  }

  /** Putting spaces after every line break before or after escaping gives the same text. */
  lemma {:induction false} EscapeIndentCommute(v: string, ind: string)
    requires Blank(ind)
    ensures IndentLines(EscapeChars(v), ind) == EscapeChars(IndentLines(v, ind))
  {
    if v != [] {
      EscapeIndentCommute(v[1..], ind);
      CommuteStep(v, ind);
    }
  }

  /** One character of the commutation: the first character of `v`, escaped and indented in
      either order, in front of the rest. */
  lemma CommuteStep(v: string, ind: string)
    requires Blank(ind) && v != []
    requires IndentLines(EscapeChars(v[1..]), ind) == EscapeChars(IndentLines(v[1..], ind))
    ensures IndentLines(EscapeChars(v), ind) == EscapeChars(IndentLines(v, ind))
  {
    if v[0] == '\n' {
      CommuteNewline(v, ind);
    } else {
      CommutePlain(v, ind);
    }
  }

  lemma CommuteNewline(v: string, ind: string)
    requires Blank(ind) && v != [] && v[0] == '\n'
    requires IndentLines(EscapeChars(v[1..]), ind) == EscapeChars(IndentLines(v[1..], ind))
    ensures IndentLines(EscapeChars(v), ind) == EscapeChars(IndentLines(v, ind))
  {
    var x := v[1..];
    var rx := IndentLines(x, ind);
    EscapeCharsHead(v);
    assert EscapeChars(v) == ['\n'] + EscapeChars(x);
    ReplaceCharAppend(['\n'], EscapeChars(x), '\n', "\n" + ind);
    assert IndentLines(v, ind) == ("\n" + ind) + rx;
    NewlineCommutes(ind, rx);
  }

  lemma CommutePlain(v: string, ind: string)
    requires Blank(ind) && v != [] && v[0] != '\n'
    requires IndentLines(EscapeChars(v[1..]), ind) == EscapeChars(IndentLines(v[1..], ind))
    ensures IndentLines(EscapeChars(v), ind) == EscapeChars(IndentLines(v, ind))
  {
    var x := v[1..];
    var rx := IndentLines(x, ind);
    var head := if EscapedHead(v) then ['\\', v[0]] else [v[0]];
    IndentFirst(x, ind);
    EscapeCharsHead(v);
    ReplaceCharAppend(head, EscapeChars(x), '\n', "\n" + ind);
    ReplaceCharAbsent(head, '\n', "\n" + ind);
    var w := [v[0]] + rx;
    assert IndentLines(v, ind) == w;
    assert w[1..] == rx;
    EscapeCharsHead(w);
  }

  /** Indenting keeps the first character. */
  lemma IndentFirst(x: string, ind: string)
    ensures x == [] <==> IndentLines(x, ind) == []
    ensures x != [] ==> IndentLines(x, ind)[0] == x[0]
  {
  }

  /** A line break and its indentation pass through escaping unchanged. */
  lemma NewlineCommutes(ind: string, y: string)
    requires Blank(ind)
    ensures EscapeChars(("\n" + ind) + y) == ("\n" + ind) + EscapeChars(y)
  {
    assert ("\n" + ind) + y == ['\n'] + (ind + y);
    EscapeCharsCons('\n', ind + y);
    EscapeBlankPrefix(ind, y);
    assert ['\n'] + (ind + EscapeChars(y)) == ("\n" + ind) + EscapeChars(y);
  }

  // ---------------------------------------------------------------------------------------
  // Indenting a record

  /** Every value indented. */
  function IndentAll(vals: seq<string>, ind: string): (r: seq<string>)
    ensures |r| == |vals|
    ensures forall i :: 0 <= i < |vals| ==> r[i] == IndentLines(vals[i], ind)
  {
    seq(|vals|, i requires 0 <= i < |vals| => IndentLines(vals[i], ind))
  }

  /** Field leads without line breaks. */
  predicate OneLineLeads(specs: seq<FieldSpec>) {
    forall i :: 0 <= i < |specs| ==> '\n' !in specs[i].lead
  }

  /** Indenting written fields is writing indented values with indented line breaks. */
  lemma {:induction false} IndentFields(ind: string, specs: seq<FieldSpec>, vals: seq<string>, tail: string)
    requires Blank(ind) && |vals| == |specs| && specs != [] && OneLineLeads(specs)
    ensures ind + IndentLines(WriteFields("", specs, vals, tail), ind)
      == WriteFields(ind, specs, IndentAll(vals, ind), IndentLines(tail, ind))
    decreases |specs|
  {
    var l, q, v0 := specs[0].lead, specs[0].q, vals[0];
    assert '\n' !in l;
    if |specs| == 1 {
      IndentField(ind, l, q, v0, tail, IndentLines(tail, ind));
    } else {
      var w := WriteFields("", specs[1..], vals[1..], tail);
      var w' := WriteFields(ind, specs[1..], IndentAll(vals, ind)[1..], IndentLines(tail, ind));
      assert IndentLines(",\n" + w, ind) == ",\n" + w' by {
        assert OneLineLeads(specs[1..]) by {
          forall i | 0 <= i < |specs| - 1 ensures '\n' !in specs[1..][i].lead {
            assert specs[1..][i] == specs[i + 1];
          }
        }
        IndentFields(ind, specs[1..], vals[1..], tail);
        assert IndentAll(vals[1..], ind) == IndentAll(vals, ind)[1..];
        IndentSeparator(ind, w);
      }
      IndentField(ind, l, q, v0, ",\n" + w, ",\n" + w');
    }
  }

  /** `,` and a line break, then `w`: the line break gains the indentation. */
  lemma IndentSeparator(ind: string, w: string)
    ensures IndentLines(",\n" + w, ind) == ",\n" + (ind + IndentLines(w, ind))
  {
    var nl := "\n" + ind;
    ReplaceCharAppend(",\n", w, '\n', nl);
    assert IndentLines(",\n", ind) == ",\n" + ind;
  }

  /** Indenting one written field, whose lead has no line break, is writing it with its value
      indented, given what indenting the text after it gives. */
  lemma IndentField(ind: string, l: string, q: Quote, v: string, after: string, after': string)
    requires Blank(ind) && '\n' !in l && IndentLines(after, ind) == after'
    ensures ind + IndentLines(FieldPart("", l, q, v, after), ind) == FieldPart(ind, l, q, IndentLines(v, ind), after')
  {
    var nl := "\n" + ind;
    var body := Escape(v) + ([CloseChar(q)] + after);
    assert FieldPart("", l, q, v, after) == l + body;
    ReplaceCharAppend(l, body, '\n', nl);
    ReplaceCharAbsent(l, '\n', nl);
    ReplaceCharAppend(Escape(v), [CloseChar(q)] + after, '\n', nl);
    ReplaceCharAppend([CloseChar(q)], after, '\n', nl);
    assert IndentLines([CloseChar(q)], ind) == [CloseChar(q)];
    EscapeIndentCommute(v, ind);
  }

  /** The prompt with the line breaks of its content indented. */
  function IndentContent(p: Prompt, ind: string): (r: Prompt)
    ensures EntryOf(r) == EntryOf(p).(content := IndentLines(p.content, ind))
  {
    p.(content := IndentLines(p.content, ind))
  }

  lemma TypeNameOneLine(k: PromptType)
    ensures '\n' !in TypeName(k) && '\'' !in TypeName(k) && '\r' !in TypeName(k)
  {
    match k
    case SystemPrompt => assert TypeName(k) == "SYSTEM_PROMPT";
    case AppStarterPrompt => assert TypeName(k) == "APP_STARTER_PROMPT";
    case QuickAction => assert TypeName(k) == "QUICK_ACTION";
  }

  /** `generateTampermonkeyScript`'s indentation of a record's text is the record laid out with indented line
      breaks, except that the content's own line breaks are indented as well. */
  lemma IndentRecord(ind: string, p: Prompt)
    requires Blank(ind) && Recordable(p)
    ensures IndentLines(RecordText(p), ind) == Layout(ind, IndentContent(p, ind), [])
  {
    var end := "\n" + ("" + ("}" + []));
    var vals := FieldValues(p);
    var p' := IndentContent(p, ind);
    var w := WriteFields("", RecordFields, vals, end);
    RecordFieldsOneLine();
    calc {
      IndentLines(RecordText(p), ind);
      { RecordTextLayout(p); }
      IndentLines("{\n" + w, ind);
      { IndentBraces(ind, w); }
      "{\n" + (ind + IndentLines(w, ind));
      { IndentFields(ind, RecordFields, vals, end); }
      "{\n" + WriteFields(ind, RecordFields, IndentAll(vals, ind), IndentLines(end, ind));
      { IndentEnd(ind); IndentValues(ind, p); }
      "{\n" + WriteFields(ind, RecordFields, FieldValues(p'), "\n" + (ind + ("}" + [])));
      Layout(ind, p', []);
    }
  }

  lemma RecordFieldsOneLine()
    ensures OneLineLeads(RecordFields)
  {
    forall i | 0 <= i < |RecordFields| ensures '\n' !in RecordFields[i].lead {
      LeadOneLine(i);
    }
  }

  lemma LeadOneLine(i: nat)
    requires i < |RecordFields|
    ensures '\n' !in RecordFields[i].lead
  {
    if i == 0 {
      assert '\n' !in RecordFields[0].lead;
    } else if i == 1 {
      assert '\n' !in RecordFields[1].lead;
    } else if i == 2 {
      assert '\n' !in RecordFields[2].lead;
    } else if i == 3 {
      assert '\n' !in RecordFields[3].lead;
    } else {
      assert '\n' !in RecordFields[4].lead;
    }
  }

  lemma IndentBraces(ind: string, w: string)
    ensures IndentLines("{\n" + w, ind) == "{\n" + (ind + IndentLines(w, ind))
  {
    var nl := "\n" + ind;
    assert "{\n" + w == "{" + ("\n" + w);
    ReplaceCharAppend("{", "\n" + w, '\n', nl);
    ReplaceCharAppend("\n", w, '\n', nl);
    assert IndentLines("{", ind) == "{";
    assert IndentLines("\n", ind) == nl;
  }

  lemma IndentEnd(ind: string)
    ensures IndentLines("\n" + ("" + ("}" + [])), ind) == "\n" + (ind + ("}" + []))
  {
    var nl := "\n" + ind;
    assert "\n" + ("" + ("}" + [])) == "\n" + "}";
    ReplaceCharAppend("\n", "}", '\n', nl);
    assert IndentLines("}", ind) == "}";
  }

  lemma IndentValues(ind: string, p: Prompt)
    requires Recordable(p)
    ensures IndentAll(FieldValues(p), ind) == FieldValues(IndentContent(p, ind))
  {
    var nl := "\n" + ind;
    TypeNameOneLine(p.kind);
    ReplaceCharAbsent(p.id, '\n', nl);
    ReplaceCharAbsent(TypeName(p.kind), '\n', nl);
    ReplaceCharAbsent(p.title, '\n', nl);
    ReplaceCharAbsent(CategoryOrEmpty(p), '\n', nl);
  }

  // ---------------------------------------------------------------------------------------
  // Writing and reading the data section

  /** One prompt's entry as written: the record text, indented, after one indentation. */
  function EntryText(p: Prompt): (r: string)
    ensures |r| >= 3 * |Pad| + 4
    ensures r[..2 * |Pad| + 2] == Pad + "{\n" + Pad
    ensures r[|r| - |Pad| - 2..] == "\n" + Pad + "}"
  {
    IndentBraced(RecordText(p));
    Pad + IndentLines(RecordText(p), Pad)
  }

  /** Indenting a braced text puts `Pad` after its opening line break and before its
      closing brace. */
  lemma IndentBraced(rt: string)
    requires |rt| >= 4 && rt[..2] == "{\n" && rt[|rt| - 3..] == "`\n}"
    ensures var r := Pad + IndentLines(rt, Pad);
      && |r| >= 3 * |Pad| + 4
      && r[..2 * |Pad| + 2] == Pad + "{\n" + Pad
      && r[|r| - |Pad| - 2..] == "\n" + Pad + "}"
  {
    assert rt[|rt| - 2..] == rt[|rt| - 3..][1..];
    var mid := rt[2..|rt| - 2];
    assert rt == "{\n" + mid + "\n}";
    ReplaceCharAppend("{\n" + mid, "\n}", '\n', "\n" + Pad);
    ReplaceCharAppend("{\n", mid, '\n', "\n" + Pad);
    assert IndentLines("{\n", Pad) == "{\n" + Pad by {
      assert "{\n"[1..] == "\n" && "\n"[1..] == "";
    }
    assert IndentLines("\n}", Pad) == "\n" + Pad + "}" by {
      assert "\n}"[1..] == "}" && "}"[1..] == "";
    }
  }

  /** The entries joined by `,\n`, in input order. */
  function Entries(ps: seq<Prompt>): string
    requires ps != []
  {
    EntryText(ps[0]) + (if |ps| == 1 then [] else ",\n" + Entries(ps[1..]))
  }

  /** `promptsArrayString`: the placeholder comment when there are no prompts. */
  function DataSectionText(ps: seq<Prompt>): (r: string)
    ensures ps == [] ==> r == Placeholder
    ensures ps != [] ==> |r| > |Pad| && r[..|Pad| + 1] == Pad + "{"
    ensures ParseDataSection(r) == Some([]) <==> ps == []
  {
    if |ps| > 0 then
      var e := EntryText(ps[0]);
      var tail := if |ps| == 1 then [] else ",\n" + Entries(ps[1..]);
      assert Entries(ps) == e + tail;
      OpensEntry(e, tail);
      Entries(ps)
    else Placeholder
  }

  /** Text that opens with an entry starts with `Pad` and a brace, so it is not the
      placeholder. */
  lemma OpensEntry(e: string, tail: string)
    requires |e| >= 2 * |Pad| + 2 && e[..2 * |Pad| + 2] == Pad + "{\n" + Pad
    ensures (e + tail)[..|Pad| + 1] == Pad + "{"
    ensures e + tail != Placeholder
  {
    assert (e + tail)[|Pad|] == e[|Pad|] == '{';
    assert Placeholder[|Pad|] == '/';
  }

  /** Reads entries, each a `Pad`-indented record, joined by `,\n`, up to the end of `t`. */
  function ParseEntries(t: string): (r: Option<seq<Entry>>)
    ensures r.Some? ==> r.value != []
    decreases |t|
  {
    var t0 :- Expect(Pad, t);
    var rec :- ParseRecord(Pad, t0);
    if rec.1 == [] then Some([rec.0])
    else
      var t1 :- Expect(",\n", rec.1);
      var more :- ParseEntries(t1);
      Some([rec.0] + more)
  }

  /** What a data section says: no prompts for the placeholder, else the entries. */
  function ParseDataSection(t: string): (r: Option<seq<Entry>>)
    ensures r == Some([]) <==> t == Placeholder
  {
    if t == Placeholder then Some([]) else ParseEntries(t)
  }

  /** Every prompt of the list reads back from its record. */
  predicate AllRecordable(ps: seq<Prompt>) {
    forall i :: 0 <= i < |ps| ==> Recordable(ps[i])
  }

  function EntriesOf(ps: seq<Prompt>): (r: seq<Entry>)
    ensures |r| == |ps|
    ensures forall i :: 0 <= i < |ps| ==> r[i] == EntryOf(ps[i])
  {
    seq(|ps|, i requires 0 <= i < |ps| => EntryOf(ps[i]))
  }

  /** One corrected entry: the record laid out with its own line breaks indented. */
  function IndentedRecord(p: Prompt): string {
    Pad + Layout(Pad, p, [])
  }

  /** The corrected entries: only the record's own line breaks are indented. */
  function IndentedRecords(ps: seq<Prompt>): string
    requires ps != []
  {
    IndentedRecord(ps[0]) + (if |ps| == 1 then [] else ",\n" + IndentedRecords(ps[1..]))
  }

  /** The data section with the record's line breaks indented and the content's left alone. */
  function IntendedDataSectionText(ps: seq<Prompt>): string {
    if |ps| > 0 then IndentedRecords(ps) else Placeholder
  }

  lemma {:induction false} WriteFieldsAppend(indent: string, specs: seq<FieldSpec>, vals: seq<string>, tail: string, more: string)
    requires |vals| == |specs|
    ensures WriteFields(indent, specs, vals, tail) + more == WriteFields(indent, specs, vals, tail + more)
  {
    if specs != [] {
      var t := if |specs| == 1 then tail else ",\n" + WriteFields(indent, specs[1..], vals[1..], tail);
      if |specs| > 1 {
        WriteFieldsAppend(indent, specs[1..], vals[1..], tail, more);
        assert t + more == ",\n" + WriteFields(indent, specs[1..], vals[1..], tail + more);
      }
      FieldPartAppend(indent, specs[0].lead, specs[0].q, vals[0], t, more);
    }
  }

  /** Text after a field can move into the field's tail. */
  lemma FieldPartAppend(indent: string, lead: string, q: Quote, v: string, tail: string, more: string)
    ensures FieldPart(indent, lead, q, v, tail) + more == FieldPart(indent, lead, q, v, tail + more)
  {
  }

  lemma LayoutAppend(indent: string, p: Prompt, more: string)
    ensures Layout(indent, p, []) + more == Layout(indent, p, more)
  {
    var end := "\n" + (indent + ("}" + []));
    assert end + more == "\n" + (indent + ("}" + more));
    BracedAppend(indent, RecordFields, FieldValues(p), end, more);
  }

  /** Text after a braced list of fields can move into the list's tail. */
  lemma BracedAppend(indent: string, specs: seq<FieldSpec>, vals: seq<string>, tail: string, more: string)
    requires |vals| == |specs|
    ensures ("{\n" + WriteFields(indent, specs, vals, tail)) + more == "{\n" + WriteFields(indent, specs, vals, tail + more)
  {
    WriteFieldsAppend(indent, specs, vals, tail, more);
  }

  /** Reading the corrected entries gives back every prompt's fields, in order. */
  lemma {:induction false} IndentedRecordsRoundTrip(ps: seq<Prompt>)
    requires ps != [] && AllRecordable(ps)
    ensures ParseEntries(IndentedRecords(ps)) == Some(EntriesOf(ps))
    decreases |ps|
  {
    var t := IndentedRecords(ps);
    if |ps| == 1 {
      assert t == IndentedRecord(ps[0]) + [];
      ReadIndentedRecord(ps[0], []);
      ParseLastEntry(t, EntryOf(ps[0]));
      EntriesOfCons(ps);
      assert |EntriesOf(ps[1..])| == 0;
      assert [EntryOf(ps[0])] + [] == [EntryOf(ps[0])];
    } else {
      var more := IndentedRecords(ps[1..]);
      assert t == IndentedRecord(ps[0]) + (",\n" + more);
      ReadIndentedRecord(ps[0], ",\n" + more);
      AllRecordableTail(ps);
      IndentedRecordsRoundTrip(ps[1..]);
      ParseNextEntry(t, EntryOf(ps[0]), more, EntriesOf(ps[1..]));
      EntriesOfCons(ps);
    }
  }

  lemma EntriesOfCons(ps: seq<Prompt>)
    requires ps != []
    ensures EntriesOf(ps) == [EntryOf(ps[0])] + EntriesOf(ps[1..])
  {
    assert EntriesOf(ps)[1..] == EntriesOf(ps[1..]);
  }

  /** A text that is one indented record and nothing more reads as that one entry. */
  lemma ParseLastEntry(t: string, e: Entry)
    requires Expect(Pad, t).Some? && ParseRecord(Pad, Expect(Pad, t).value) == Some((e, []))
    ensures ParseEntries(t) == Some([e])
  {
  }

  /** An indented record, a separator and more entries read as the record's entry and then
      the others. */
  lemma ParseNextEntry(t: string, e: Entry, more: string, es: seq<Entry>)
    requires Expect(Pad, t).Some? && ParseRecord(Pad, Expect(Pad, t).value) == Some((e, ",\n" + more))
    requires ParseEntries(more) == Some(es)
    ensures ParseEntries(t) == Some([e] + es)
  {
    ExpectPrefix(",\n", more);
  }

  /** A corrected entry reads back as its prompt's fields, followed by what comes after it. */
  lemma ReadIndentedRecord(p: Prompt, rest: string)
    requires Recordable(p)
    ensures
      var t0 := Expect(Pad, IndentedRecord(p) + rest);
      t0 == Some(Layout(Pad, p, rest)) && ParseRecord(Pad, t0.value) == Some((EntryOf(p), rest))
  {
    ReadLaidOut(Pad, p, rest);
  }

  /** A record laid out after its indentation reads back, whatever the indentation. */
  lemma ReadLaidOut(ind: string, p: Prompt, rest: string)
    requires Recordable(p)
    ensures Expect(ind, ind + Layout(ind, p, []) + rest) == Some(Layout(ind, p, rest))
    ensures ParseRecord(ind, Layout(ind, p, rest)) == Some((EntryOf(p), rest))
  {
    LayoutAppend(ind, p, rest);
    ExpectAfter(ind, Layout(ind, p, []), rest, Layout(ind, p, rest));
    RecordRoundTrip(ind, p, rest);
  }

  lemma ExpectAfter(a: string, b: string, c: string, bc: string)
    requires b + c == bc
    ensures Expect(a, a + b + c) == Some(bc)
  {
    assert a + b + c == a + bc;
    ExpectPrefix(a, bc);
  }

  lemma PlaceholderIsNoRecord(ps: seq<Prompt>)
    requires ps != []
    ensures IndentedRecords(ps) != Placeholder
  {
    var t := IndentedRecords(ps);
    assert t[8] == '{';
    assert Placeholder[8] == '/';
  }

  /** Corrected data section: reading it back gives exactly the prompts' fields, in order, for
      the empty list too. */
  lemma IntendedDataSectionRoundTrip(ps: seq<Prompt>)
    requires AllRecordable(ps)
    ensures ParseDataSection(IntendedDataSectionText(ps)) == Some(EntriesOf(ps))
  {
    if ps != [] {
      PlaceholderIsNoRecord(ps);
      IndentedRecordsRoundTrip(ps);
    }
  }

  /** Every prompt with its content's line breaks indented by `Pad`. */
  function IndentAllContent(ps: seq<Prompt>): (r: seq<Prompt>)
    ensures |r| == |ps|
    ensures forall i :: 0 <= i < |ps| ==> r[i] == IndentContent(ps[i], Pad)
  {
    seq(|ps|, i requires 0 <= i < |ps| => IndentContent(ps[i], Pad))
  }

  lemma PadBlank()
    ensures Blank(Pad)
  {
  }

  /** Indenting keeps a record readable: it adds no quote and no CR. */
  lemma {:induction false} IndentKeepsSafe(s: string, ind: string, q: Quote)
    requires Blank(ind) && q == Backtick && SafeFor(q, s)
    ensures SafeFor(q, IndentLines(s, ind))
  {
    if s != [] {
      IndentKeepsSafe(s[1..], ind, q);
      var head := if s[0] == '\n' then "\n" + ind else [s[0]];
      assert '\r' !in head;
      assert IndentLines(s, ind) == head + IndentLines(s[1..], ind);
    }
  }

  lemma {:induction false} EntriesAsIndented(ps: seq<Prompt>)
    requires ps != [] && AllRecordable(ps)
    ensures Entries(ps) == IndentedRecords(IndentAllContent(ps))
    decreases |ps|
  {
    var qs := IndentAllContent(ps);
    EntryAsIndented(ps[0]);
    if |ps| > 1 {
      AllRecordableTail(ps);
      EntriesAsIndented(ps[1..]);
      IndentAllContentTail(ps);
    }
  }

  lemma IndentAllContentTail(ps: seq<Prompt>)
    requires ps != []
    ensures IndentAllContent(ps)[1..] == IndentAllContent(ps[1..])
  {
  }

  /** One entry as written is the record with its content indented, laid out with the
      record's line breaks indented. */
  lemma EntryAsIndented(p: Prompt)
    requires Recordable(p)
    ensures EntryText(p) == IndentedRecord(IndentContent(p, Pad))
  {
    PadBlank();
    IndentRecord(Pad, p);
  }

  lemma AllRecordableTail(ps: seq<Prompt>)
    requires ps != [] && AllRecordable(ps)
    ensures AllRecordable(ps[1..])
  {
    forall i | 0 <= i < |ps| - 1 ensures Recordable(ps[1..][i]) {
      assert ps[1..][i] == ps[i + 1];
    }
  }

  /** Indenting the contents keeps every record readable. */
  lemma IndentAllRecordable(ps: seq<Prompt>)
    requires AllRecordable(ps)
    ensures AllRecordable(IndentAllContent(ps))
  {
    PadBlank();
    forall i | 0 <= i < |ps| ensures Recordable(IndentAllContent(ps)[i]) {
      IndentKeepsSafe(ps[i].content, Pad, Backtick);
    }
  }

  /** The data section as written reads back as every prompt's fields, in order, except that
      each line break inside a content is followed by eight extra spaces. */
  lemma DataSectionRoundTrip(ps: seq<Prompt>)
    requires AllRecordable(ps)
    ensures ParseDataSection(DataSectionText(ps)) == Some(EntriesOf(IndentAllContent(ps)))
  {
    if ps != [] {
      EntriesAsIndented(ps);
      IndentAllRecordable(ps);
      PlaceholderIsNoRecord(IndentAllContent(ps));
      IndentedRecordsRoundTrip(IndentAllContent(ps));
    }
  }

  /** Without line breaks in any content the section as written is the corrected one, and so
      reads back exactly. */
  lemma SingleLineContentUnchanged(ps: seq<Prompt>)
    requires AllRecordable(ps)
    requires forall i :: 0 <= i < |ps| ==> '\n' !in ps[i].content
    ensures DataSectionText(ps) == IntendedDataSectionText(ps)
    ensures ParseDataSection(DataSectionText(ps)) == Some(EntriesOf(ps))
  {
    if ps != [] {
      EntriesAsIndented(ps);
      forall i | 0 <= i < |ps| ensures IndentAllContent(ps)[i] == ps[i] {
        ReplaceCharAbsent(ps[i].content, '\n', "\n" + Pad);
      }
      assert IndentAllContent(ps) == ps;
    }
    IntendedDataSectionRoundTrip(ps);
  }

  /** A two-line content comes back from the section as written with its second line
      indented. */
  lemma MultilineContentIndented(p: Prompt)
    requires Recordable(p) && p.content == "a\nb"
    ensures ParseDataSection(DataSectionText([p])) == Some([EntryOf(p).(content := "a\n        b")])
    ensures ParseDataSection(IntendedDataSectionText([p])) == Some([EntryOf(p)])
  {
    SingleEntryAsWritten(p);
    IntendedDataSectionRoundTrip([p]);
    assert EntriesOf([p]) == [EntryOf(p)];
  }

  /** The as-written half of `MultilineContentIndented`. */
  lemma SingleEntryAsWritten(p: Prompt)
    requires Recordable(p) && p.content == "a\nb"
    ensures ParseDataSection(DataSectionText([p])) == Some([EntryOf(p).(content := "a\n        b")])
  {
    var p' := IndentContent(p, Pad);
    calc {
      ParseDataSection(DataSectionText([p]));
      { DataSectionRoundTrip([p]); }
      Some(EntriesOf(IndentAllContent([p])));
      { assert IndentAllContent([p]) == [p']; }
      Some(EntriesOf([p']));
      { assert EntriesOf([p']) == [EntryOf(p')]; }
      Some([EntryOf(p')]);
      { IndentTwoLines(); }
      Some([EntryOf(p).(content := "a\n        b")]);
    }
  }

  lemma IndentTwoLines()
    ensures IndentLines("a\nb", Pad) == "a\n        b"
  {
    var nl := "\n" + Pad;
    assert "a\nb"[1..] == "\nb";
    assert "\nb"[1..] == "b";
    assert ReplaceChar("b", '\n', nl) == "b";
    assert ReplaceChar("\nb", '\n', nl) == nl + "b";
  }

  // ---------------------------------------------------------------------------------------
  // Script version

  /** `new Date().toISOString().slice(0, 10).replace(/-/g, '.')`, with the ISO text of the
      current time passed in. */
  function ScriptVersion(iso: string): (r: string)
    ensures |r| == if |iso| < 10 then |iso| else 10
    ensures forall i :: 0 <= i < |r| ==> r[i] == (if iso[i] == '-' then '.' else iso[i])
  {
    var day := if |iso| < 10 then iso else iso[..10];
    ReplaceCharPointwise(day, '-', '.');
    ReplaceChar(day, '-', ".")
  }

  predicate IsDigit(c: char) {
    '0' <= c <= '9'
  }

  /** The shape `toISOString` gives: `YYYY-MM-DDTHH:mm:ss.sssZ`, here only its first ten
      characters. */
  predicate IsoDate(iso: string) {
    && |iso| >= 10
    && IsDigit(iso[0]) && IsDigit(iso[1]) && IsDigit(iso[2]) && IsDigit(iso[3])
    && iso[4] == '-' && IsDigit(iso[5]) && IsDigit(iso[6])
    && iso[7] == '-' && IsDigit(iso[8]) && IsDigit(iso[9])
  }

  /** For an ISO timestamp the version is year, month and day joined by dots. */
  lemma ScriptVersionOfIsoDate(iso: string)
    requires IsoDate(iso)
    ensures ScriptVersion(iso) == iso[..4] + "." + iso[5..7] + "." + iso[8..10]
  {
    var r := ScriptVersion(iso);
    var e := iso[..4] + "." + iso[5..7] + "." + iso[8..10];
    assert |r| == |e| == 10;
    forall i | 0 <= i < 10 ensures r[i] == e[i] {
    }
  }
}

=== FILE: escaping.dfy ===
/** `escapePromptContentForScript` (src/lib/utils.ts) and its embedded twin
    `escapeForTemplateLiteral`: three global replacements applied in order, so that a string
    can be placed between quotes in generated script text. */
module Escaping {
  import opened Options
  import opened Text
  import opened JsLiterals

  /** `s.replace(/\$\{/g, '\\${')`: every `${` gains a backslash in front. */
  function EscapeInterpolation(s: string): string {
    if s == [] then []
    else if |s| >= 2 && s[0] == '$' && s[1] == '{' then "\\${" + EscapeInterpolation(s[2..])
    else [s[0]] + EscapeInterpolation(s[1..])
  }

  /** The three replacements as written: backslashes first, then backticks, then `${`. */
  function Escape(s: string): (r: string)
    ensures r == EscapeChars(s)
    ensures |r| == |s| + CountChar(s, '\\') + CountChar(s, '`') + CountInterpolations(s)
  {
    EscapeAgrees(s);
    EscapeCharsLength(s);
    EscapeInterpolation(TwoPasses(s))
  }

  /** The first two replacements: backslashes, then backticks. */
  function TwoPasses(s: string): string {
    ReplaceChar(ReplaceChar(s, '\\', "\\\\"), '`', "\\`")
  }

  /** Reference definition: one left-to-right pass that puts a backslash before every
      backslash, every backtick and every `$` that opens a `${`. */
  function EscapeChars(s: string): (r: string)
    ensures s == [] <==> r == []
    ensures s != [] ==> (r[0] == '{' <==> s[0] == '{')
  {
    if s == [] then []
    else if s[0] == '\\' then "\\\\" + EscapeChars(s[1..])
    else if s[0] == '`' then "\\`" + EscapeChars(s[1..])
    else if s[0] == '$' && |s| >= 2 && s[1] == '{' then "\\$" + EscapeChars(s[1..])
    else [s[0]] + EscapeChars(s[1..])
  }

  /** Escaping only inserts backslashes: every other character occurs in the result exactly
      when it occurs in the input. */
  lemma {:induction false} EscapeCharsKeeps(s: string, c: char)
    requires c != '\\'
    ensures c in EscapeChars(s) <==> c in s
  {
    if s != [] {
      EscapeCharsKeeps(s[1..], c);
      assert s == [s[0]] + s[1..];
    }
  }

  /** Number of positions where `${` starts. */
  function CountInterpolations(s: string): nat {
    if |s| < 2 then 0 else (if s[0] == '$' && s[1] == '{' then 1 else 0) + CountInterpolations(s[1..])
  }

  /** `escapePromptContentForScript` with its `undefined`/`null` guard: an absent value escapes to the
      empty string. */
  function EscapeForScript(s: Option<string>): (r: string)
    ensures s.None? ==> r == []
    ensures s.Some? ==> |r| == |s.value| + CountChar(s.value, '\\') + CountChar(s.value, '`') + CountInterpolations(s.value)
    ensures s.Some? ==> forall q :: SafeFor(q, s.value) ==> ReadLiteral(q, r + [CloseChar(q)]) == Some((s.value, []))
  {
    match s
    case None => []
    case Some(v) =>
      var r := Escape(v);
      assert forall q :: SafeFor(q, v) ==> ReadLiteral(q, r + [CloseChar(q)]) == Some((v, [])) by {
        forall q | SafeFor(q, v) ensures ReadLiteral(q, r + [CloseChar(q)]) == Some((v, [])) {
          EscapeRoundTrip(q, v, []);
          assert r + [CloseChar(q)] + [] == r + [CloseChar(q)];
        }
      }
      r
  }

  lemma {:induction false} EscapeCharsLength(s: string)
    ensures |EscapeChars(s)| == |s| + CountChar(s, '\\') + CountChar(s, '`') + CountInterpolations(s)
  {
    if s != [] {
      EscapeCharsLength(s[1..]);
    }
  }

  /** The backslash and backtick passes distribute over a leading character. */
  lemma TwoPassesCons(s: string)
    requires s != []
    ensures TwoPasses(s)
         == (if s[0] == '\\' then "\\\\" else if s[0] == '`' then "\\`" else [s[0]]) + TwoPasses(s[1..])
  {
    var h := if s[0] == '\\' then "\\\\" else [s[0]];
    ReplaceCharAppend(h, ReplaceChar(s[1..], '\\', "\\\\"), '`', "\\`");
    if s[0] == '\\' {
      assert ReplaceChar(h, '`', "\\`") == "\\\\";
    } else if s[0] == '`' {
      assert ReplaceChar(h, '`', "\\`") == "\\`";
    } else {
      assert ReplaceChar(h, '`', "\\`") == [s[0]];
    }
  }

  /** The first two passes map a non-empty string to one starting with `{` exactly when it
      starts with `{`. */
  lemma TwoPassesHead(s: string)
    requires s != []
    ensures var t := TwoPasses(s); t != [] && (t[0] == '{' <==> s[0] == '{')
  {
    TwoPassesCons(s);
  }

  /** The three passes, in the order the function applies them, equal the one-pass
      reference. */
  lemma {:induction false} EscapeAgrees(s: string)
    ensures EscapeInterpolation(TwoPasses(s)) == EscapeChars(s)
    decreases |s|
  {
    if s != [] {
      if s[0] == '$' && |s| >= 2 && s[1] == '{' {
        EscapeAgrees(s[2..]);
        AgreesOpen(s);
      } else {
        EscapeAgrees(s[1..]);
        AgreesOne(s);
      }
    }
  }

  /** The agreement, one character further, when `s` does not start with `${`. */
  lemma AgreesOne(s: string)
    requires s != [] && !(s[0] == '$' && |s| >= 2 && s[1] == '{')
    requires EscapeInterpolation(TwoPasses(s[1..])) == EscapeChars(s[1..])
    ensures EscapeInterpolation(TwoPasses(s)) == EscapeChars(s)
  {
    var t := TwoPasses(s[1..]);
    TwoPassesCons(s);
    EscapeCharsHead(s);
    if s[0] == '\\' || s[0] == '`' {
      assert TwoPasses(s) == ['\\', s[0]] + t;
      EscapedPassesThrough(s[0], t, EscapeChars(s[1..]));
    } else {
      if s[0] == '$' && s[1..] != [] {
        TwoPassesHead(s[1..]);
      }
      InterpolationPlain(s[0], t);
    }
  }

  /** A backslash pair in front of a text passes through the third replacement. */
  lemma EscapedPassesThrough(c: char, t: string, e: string)
    requires c != '$' && EscapeInterpolation(t) == e
    ensures EscapeInterpolation(['\\', c] + t) == ['\\', c] + e
  {
    InterpolationPlain(c, t);
    assert ['\\', c] + t == ['\\'] + ([c] + t);
    InterpolationPlain('\\', [c] + t);
  }

  /** The agreement, two characters further, when `s` starts with `${`. */
  lemma AgreesOpen(s: string)
    requires |s| >= 2 && s[0] == '$' && s[1] == '{'
    requires EscapeInterpolation(TwoPasses(s[2..])) == EscapeChars(s[2..])
    ensures EscapeInterpolation(TwoPasses(s)) == EscapeChars(s)
  {
    var u := TwoPasses(s[2..]);
    assert s[1..][1..] == s[2..];
    TwoPassesCons(s);
    TwoPassesCons(s[1..]);
    EscapeCharsHead(s);
    EscapeCharsHead(s[1..]);
    OpenPassesThrough(u, EscapeChars(s[2..]));
  }

  /** `${` in front of a text gains its backslash in the third replacement. */
  lemma OpenPassesThrough(u: string, e: string)
    requires EscapeInterpolation(u) == e
    ensures EscapeInterpolation(['$'] + (['{'] + u)) == ['\\', '$'] + (['{'] + e)
  {
    assert ['$'] + (['{'] + u) == "${" + u;
    InterpolationOpen(u);
  }

  /** A character that does not open `${` passes through the third replacement. */
  lemma InterpolationPlain(c: char, t: string)
    requires c != '$' || t == [] || t[0] != '{'
    ensures EscapeInterpolation([c] + t) == [c] + EscapeInterpolation(t)
  {
    assert ([c] + t)[1..] == t;
  }

  lemma InterpolationOpen(u: string)
    ensures EscapeInterpolation("${" + u) == "\\${" + EscapeInterpolation(u)
  {
    assert ("${" + u)[2..] == u;
  }

  /** Round trip: reading back the escaped text followed by the closing quote yields the
      original string and stops exactly after that quote. */
  lemma EscapeRoundTrip(q: Quote, s: string, rest: string)
    requires SafeFor(q, s)
    ensures ReadLiteral(q, Escape(s) + [CloseChar(q)] + rest) == Some((s, rest))
  {
    EscapeCharsRoundTrip(q, s, rest);
    assert Escape(s) + [CloseChar(q)] + rest == EscapeChars(s) + ([CloseChar(q)] + rest);
  }

  lemma {:induction false} EscapeCharsRoundTrip(q: Quote, s: string, rest: string)
    requires SafeFor(q, s)
    ensures ReadLiteral(q, EscapeChars(s) + ([CloseChar(q)] + rest)) == Some((s, rest))
    decreases |s|
  {
    if s == [] {
      assert EscapeChars(s) + ([CloseChar(q)] + rest) == [CloseChar(q)] + rest;
    } else {
      assert SafeFor(q, s[1..]) by {
        assert forall c :: c in s[1..] ==> c in s;
      }
      EscapeCharsRoundTrip(q, s[1..], rest);
      RoundTripStep(q, s, rest);
    }
  }

  /** One step of the round trip: the escaped first character is read back in front of what
      the rest reads back as. */
  lemma RoundTripStep(q: Quote, s: string, rest: string)
    requires s != [] && SafeFor(q, s)
    requires ReadLiteral(q, EscapeChars(s[1..]) + ([CloseChar(q)] + rest)) == Some((s[1..], rest))
    ensures ReadLiteral(q, EscapeChars(s) + ([CloseChar(q)] + rest)) == Some((s, rest))
  {
    var close := [CloseChar(q)] + rest;
    if EscapedHead(s) {
      ReadEscapedHead(q, s, close);
    } else {
      ReadPlainHead(q, s, rest);
    }
    PrependHead(s, ReadLiteral(q, EscapeChars(s[1..]) + close), rest);
  }

  /** Putting back the first character of `s` in front of the rest read back gives `s`. */
  lemma PrependHead(s: string, r: Option<(string, string)>, rest: string)
    requires s != [] && r == Some((s[1..], rest))
    ensures Prepend(s[0], r) == Some((s, rest))
  {
    assert [s[0]] + s[1..] == s;
  }

  /** The first character of `s` is written with a backslash in front. */
  predicate EscapedHead(s: string)
    requires s != []
  {
    s[0] == '\\' || s[0] == '`' || (s[0] == '$' && |s| >= 2 && s[1] == '{')
  }

  lemma ReadEscapedHead(q: Quote, s: string, close: string)
    requires s != [] && EscapedHead(s)
    ensures ReadLiteral(q, EscapeChars(s) + close) == Prepend(s[0], ReadLiteral(q, EscapeChars(s[1..]) + close))
  {
    var tail := EscapeChars(s[1..]) + close;
    assert EscapeChars(s) == ['\\', s[0]] + EscapeChars(s[1..]);
    assert EscapeChars(s) + close == ['\\', s[0]] + tail;
    ReadEscapedPair(q, s[0], tail);
  }

  lemma ReadPlainHead(q: Quote, s: string, rest: string)
    requires s != [] && !EscapedHead(s) && SafeFor(q, s)
    ensures var close := [CloseChar(q)] + rest;
      ReadLiteral(q, EscapeChars(s) + close) == Prepend(s[0], ReadLiteral(q, EscapeChars(s[1..]) + close))
  {
    var close := [CloseChar(q)] + rest;
    var tail := EscapeChars(s[1..]) + close;
    assert EscapeChars(s) == [s[0]] + EscapeChars(s[1..]);
    assert EscapeChars(s) + close == [s[0]] + tail;
    assert s[0] in s;
    if s[0] == '$' && s[1..] != [] {
      assert tail[0] == EscapeChars(s[1..])[0];
    }
    ReadPlain(q, s[0], tail);
  }

  lemma ReadEscapedPair(q: Quote, c: char, tail: string)
    requires IsEscapable(c)
    ensures ReadLiteral(q, ['\\', c] + tail) == Prepend(c, ReadLiteral(q, tail))
  {
    assert (['\\', c] + tail)[2..] == tail;
  }

  lemma ReadPlain(q: Quote, c: char, tail: string)
    requires c != CloseChar(q) && c != '\\'
    requires q == SingleQuote ==> c != '\n' && c != '\r'
    requires q == Backtick ==> c != '\r' && (c == '$' ==> tail == [] || tail[0] != '{')
    ensures ReadLiteral(q, [c] + tail) == Prepend(c, ReadLiteral(q, tail))
  {
    assert ([c] + tail)[1..] == tail;
  }

  // ---------------------------------------------------------------------------------------
  // Single quotes

  /** As written, a `'` in a value put between single quotes is left alone and ends the
      literal: the title `it's` reads back as `it`, and the script text goes on with `s'`. */
  lemma ApostropheEndsLiteral(rest: string)
    ensures ReadLiteral(SingleQuote, Escape("it's") + "'" + rest) == Some(("it", "s'" + rest))
  {
    NothingToEscape();
    var after := "s'" + rest;
    assert Escape("it's") + "'" + rest == "it" + ("'" + after);
    ReadTwoPlain('i', 't', after);
  }

  lemma NothingToEscape()
    ensures Escape("it's") == "it's"
  {
    assert "it's"[1..] == "t's" && "t's"[1..] == "'s" && "'s"[1..] == "s" && "s"[1..] == [];
  }

  /** Two plain characters, then a single quote, read as those two characters. */
  lemma ReadTwoPlain(a: char, b: char, after: string)
    requires a != '\'' && a != '\\' && a != '\n' && a != '\r'
    requires b != '\'' && b != '\\' && b != '\n' && b != '\r'
    ensures ReadLiteral(SingleQuote, [a, b] + ("'" + after)) == Some(([a, b], after))
  {
    assert ReadLiteral(SingleQuote, "'" + after) == Some(([], after));
    ReadPlain(SingleQuote, b, "'" + after);
    ReadPlain(SingleQuote, a, [b] + ("'" + after));
    assert [a, b] + ("'" + after) == [a] + ([b] + ("'" + after));
    assert [a] + ([b] + []) == [a, b];
  }

  /** The escaping the single-quoted fields need: the three replacements, then a backslash
      before every `'` (a fourth `.replace(/'/g, "\\'")`). */
  function EscapeForSingleQuotes(s: string): (r: string)
    ensures '\'' !in s ==> r == Escape(s)
  {
    QuoteFreeUnchanged(s);
    ReplaceChar(Escape(s), '\'', "\\'")
  }

  lemma QuoteFreeUnchanged(s: string)
    ensures '\'' !in s ==> ReplaceChar(Escape(s), '\'', "\\'") == Escape(s)
  {
    if '\'' !in s {
      EscapeCharsKeeps(s, '\'');
      ReplaceCharAbsent(Escape(s), '\'', "\\'");
    }
  }

  /** Round trip of the corrected escaping: any value without a line break, quotes included,
      is read back from between single quotes, and reading stops right after the closing
      quote. */
  lemma {:induction false} SingleQuotedRoundTrip(s: string, rest: string)
    requires '\n' !in s && '\r' !in s
    ensures ReadLiteral(SingleQuote, EscapeForSingleQuotes(s) + ("'" + rest)) == Some((s, rest))
    decreases |s|
  {
    if s == [] {
      assert EscapeForSingleQuotes(s) == [];
      assert [] + ("'" + rest) == "'" + rest;
    } else {
      assert '\n' !in s[1..] && '\r' !in s[1..] by {
        assert forall c :: c in s[1..] ==> c in s;
      }
      assert s[0] in s;
      SingleQuotedRoundTrip(s[1..], rest);
      SingleQuotedStep(s, rest);
    }
  }

  /** One step of the corrected round trip: the first character is read back in front of
      what the rest reads back as. */
  lemma SingleQuotedStep(s: string, rest: string)
    requires s != [] && s[0] != '\n' && s[0] != '\r'
    requires ReadLiteral(SingleQuote, EscapeForSingleQuotes(s[1..]) + ("'" + rest)) == Some((s[1..], rest))
    ensures ReadLiteral(SingleQuote, EscapeForSingleQuotes(s) + ("'" + rest)) == Some((s, rest))
  {
    var e1 := EscapeForSingleQuotes(s[1..]);
    QuotedCons(s);
    Associative(QuotedHead(s), e1, "'" + rest);
    StepRead(s, e1 + ("'" + rest), rest);
  }

  /** What the corrected escaping writes for the first character of `s`. */
  function QuotedHead(s: string): string
    requires s != []
  {
    if s[0] == '\'' || EscapedHead(s) then ['\\', s[0]] else [s[0]]
  }

  lemma StepRead(s: string, tail: string, rest: string)
    requires s != [] && s[0] != '\n' && s[0] != '\r'
    requires ReadLiteral(SingleQuote, tail) == Some((s[1..], rest))
    ensures ReadLiteral(SingleQuote, QuotedHead(s) + tail) == Some((s, rest))
  {
    if s[0] == '\'' || EscapedHead(s) {
      ReadEscapedPair(SingleQuote, s[0], tail);
    } else {
      ReadPlain(SingleQuote, s[0], tail);
    }
    PrependHead(s, ReadLiteral(SingleQuote, tail), rest);
  }

  /** The corrected escaping, one character at a time: a backslash goes before `'` and
      before whatever `Escape` escapes; everything else is kept. */
  lemma QuotedCons(s: string)
    requires s != []
    ensures EscapeForSingleQuotes(s) == QuotedHead(s) + EscapeForSingleQuotes(s[1..])
  {
    var head := if EscapedHead(s) then ['\\', s[0]] else [s[0]];
    EscapeCharsHead(s);
    ReplaceCharAppend(head, EscapeChars(s[1..]), '\'', "\\'");
    if s[0] != '\'' {
      ReplaceCharAbsent(head, '\'', "\\'");
    } else {
      assert ReplaceChar(head, '\'', "\\'") == "\\'" by { assert head[1..] == []; }
    }
  }

  lemma EscapeCharsHead(s: string)
    requires s != []
    ensures EscapeChars(s) == (if EscapedHead(s) then ['\\', s[0]] else [s[0]]) + EscapeChars(s[1..])
  {
  }
}

=== FILE: literals.dfy ===
/** Reading the body of a JavaScript string literal back into its value: the decoder that the
    generator's escaping is measured against. Only the escape sequences the generator
    writes (`\\`, `` \` `` and `\$`), and `\'`, are recognised; any other escape, an unterminated literal,
    an interpolation `${` inside a template literal and a raw line break inside a single-quoted
    literal are rejected. Inside a template literal a raw CR or CR LF reads as LF, as section
    13.2.8 of ECMA-262 prescribes for template values. */
module JsLiterals {
  import opened Options

  datatype Quote = SingleQuote | Backtick

  function CloseChar(q: Quote): char {
    match q
    case SingleQuote => '\''
    case Backtick => '`'
  }

  /** Characters the generator puts after a backslash, and the quote that a single-quoted
      literal needs escaped. */
  predicate IsEscapable(c: char) {
    c == '\\' || c == '`' || c == '$' || c == '\''
  }

  function Prepend(c: char, r: Option<(string, string)>): (p: Option<(string, string)>)
    ensures p.Some? <==> r.Some?
    ensures p.Some? ==> p.value.1 == r.value.1
  {
    match r
    case None => None
    case Some(p) => Some(([c] + p.0, p.1))
  }

  /** Reads from just after the opening quote `q` up to and including the matching closing
      quote; returns the literal's value and the text that follows the literal. */
  function ReadLiteral(q: Quote, t: string): (r: Option<(string, string)>)
    ensures r.Some? ==> |r.value.1| < |t|
    decreases |t|
  {
    if t == [] then None
    else if t[0] == CloseChar(q) then Some(([], t[1..]))
    else if t[0] == '\\' then
      if |t| >= 2 && IsEscapable(t[1]) then Prepend(t[1], ReadLiteral(q, t[2..])) else None
    else if q == SingleQuote && (t[0] == '\n' || t[0] == '\r') then None
    else if q == Backtick && t[0] == '$' && |t| >= 2 && t[1] == '{' then None
    else if q == Backtick && t[0] == '\r' then
      Prepend('\n', ReadLiteral(q, if |t| >= 2 && t[1] == '\n' then t[2..] else t[1..]))
    else Prepend(t[0], ReadLiteral(q, t[1..]))
  }

  /** What a value must avoid to survive being written between quotes `q` after escaping:
      a single-quoted literal cannot hold its own quote or a raw line break, and a template
      literal turns a raw CR into LF. */
  predicate SafeFor(q: Quote, s: string) {
    match q
    case SingleQuote => '\'' !in s && '\n' !in s && '\r' !in s
    case Backtick => '\r' !in s
  }
}

=== FILE: modals.dfy ===
/** The generated script's modal bookkeeping (`openModalsStack`, `currentOpenModal`,
    `showModal`, `hideModal` in src/lib/utils.ts). The page is reduced to what these functions
    read from it: which overlays exist, and for each whether its z-index ends in `2`, the
    script's test for "this is a sub-modal". A lookup of a missing overlay whose style is then
    read throws; `Show` returns `None` for that. */
module ModalStack {
  import opened Options

  type ModalId = string

  /** Overlay elements present on the page: for each id, whether its z-index marks it as a
      sub-modal. An id outside the map has no overlay element. */
  type Overlays = map<ModalId, bool>

  /** `openModalsStack`, `currentOpenModal`, and the ids whose overlay is displayed. */
  datatype Modals = Modals(stack: seq<ModalId>, current: Option<ModalId>, shown: set<ModalId>)

  const Closed: Modals := Modals([], None, {})

  predicate NoDuplicates(s: seq<ModalId>) {
    forall i, j :: 0 <= i < j < |s| ==> s[i] != s[j]
  }

  /** What the two functions keep true: no id twice on the stack, the current modal is on
      the stack exactly when the stack is non-empty, and every stacked modal is displayed. */
  predicate Valid(m: Modals) {
    && NoDuplicates(m.stack)
    && (m.current == None <==> m.stack == [])
    && (m.current.Some? ==> m.current.value in m.stack)
    && (forall id :: id in m.stack ==> id in m.shown)
  }

  /** The top of a non-empty stack, or nothing. */
  function Top(s: seq<ModalId>): (r: Option<ModalId>)
    ensures r.Some? <==> s != []
    ensures r.Some? ==> r.value in s
  {
    if s == [] then None else Some(s[|s| - 1])
  }

  /** `indexOf`: the first position of `id`, or -1. */
  function IndexOf(s: seq<ModalId>, id: ModalId): (r: int)
    ensures -1 <= r < |s|
    ensures r == -1 <==> id !in s
    ensures r >= 0 ==> s[r] == id && forall k :: 0 <= k < r ==> s[k] != id
  {
    if s == [] then -1
    else if s[0] == id then 0
    else
      var k := IndexOf(s[1..], id);
      if k == -1 then -1 else k + 1
  }

  /** `splice(i, 1)`: the element at `i` removed. */
  function Splice(s: seq<ModalId>, i: nat): (r: seq<ModalId>)
    requires i < |s|
    ensures |r| == |s| - 1
    ensures forall k :: 0 <= k < |r| ==> r[k] == if k < i then s[k] else s[k + 1]
    ensures forall x :: x in r ==> x in s
  {
    s[..i] + s[i + 1..]
  }

  /** `hideModal`: nothing happens without an overlay; otherwise the overlay is hidden, the
      first occurrence of the id leaves the stack and the current modal becomes the new
      top. */
  function Hide(m: Modals, overlays: Overlays, id: ModalId): (r: Modals)
    ensures id !in overlays ==> r == m
    ensures id in overlays ==> id !in r.shown && r.current == Top(r.stack)
    ensures id in overlays && id !in m.stack ==> r.stack == m.stack
    ensures id in overlays && id in m.stack ==> |r.stack| == |m.stack| - 1
    ensures id in overlays && id in m.stack ==>
      exists i :: 0 <= i < |m.stack| && m.stack[i] == id && id !in m.stack[..i] && r.stack == m.stack[..i] + m.stack[i + 1..]
    ensures forall x :: x in r.stack ==> x in m.stack
  {
    if id !in overlays then m
    else
      var i := IndexOf(m.stack, id);
      var s := if i > -1 then Splice(m.stack, i) else m.stack;
      Modals(s, Top(s), m.shown - {id})
  }

  /** Splicing out one element keeps the rest, in order, and so keeps them distinct; the
      removed element is gone when it occurred once. */
  lemma SpliceDistinct(s: seq<ModalId>, i: nat)
    requires i < |s| && NoDuplicates(s)
    ensures NoDuplicates(Splice(s, i)) && s[i] !in Splice(s, i)
    ensures forall x :: x in Splice(s, i) ==> x in s
  {
    var r := Splice(s, i);
    forall a, b | 0 <= a < b < |r| ensures r[a] != r[b] {
      var a', b' := if a < i then a else a + 1, if b < i then b else b + 1;
      assert r[a] == s[a'] && r[b] == s[b'];
    }
    forall k | 0 <= k < |r| ensures r[k] != s[i] {
      var k' := if k < i then k else k + 1;
      assert r[k] == s[k'];
    }
  }

  /** The three outcomes of `openModalsStack.find(...)` for the first modal not marked as a
      sub-modal: an overlay that is missing (reading its style throws), none found, or found. */
  datatype Lookup = MissingOverlay | NoPrimary | Primary(id: ModalId)

  function FindPrimary(s: seq<ModalId>, overlays: Overlays): (r: Lookup)
    ensures r.Primary? ==> r.id in s && r.id in overlays && !overlays[r.id]
    ensures r.Primary? ==>
      exists i :: 0 <= i < |s| && s[i] == r.id && forall k :: 0 <= k < i ==> s[k] in overlays && overlays[s[k]]
    ensures r.MissingOverlay? ==>
      exists i :: 0 <= i < |s| && s[i] !in overlays && forall k :: 0 <= k < i ==> s[k] in overlays && overlays[s[k]]
    ensures r.NoPrimary? ==> forall id :: id in s ==> id in overlays && overlays[id]
  {
    if s == [] then NoPrimary
    else if s[0] !in overlays then MissingOverlay
    else if !overlays[s[0]] then Primary(s[0])
    else
      var r := FindPrimary(s[1..], overlays);
      FirstAfterMarked(s, overlays, r);
      r
  }

  /** A modal found after a marked first modal is still the first unmarked (or missing) one. */
  lemma FirstAfterMarked(s: seq<ModalId>, overlays: Overlays, r: Lookup)
    requires s != [] && s[0] in overlays && overlays[s[0]]
    requires r.Primary? ==>
      exists i :: 0 <= i < |s| - 1 && s[1..][i] == r.id && forall k :: 0 <= k < i ==> s[1..][k] in overlays && overlays[s[1..][k]]
    requires r.MissingOverlay? ==>
      exists i :: 0 <= i < |s| - 1 && s[1..][i] !in overlays && forall k :: 0 <= k < i ==> s[1..][k] in overlays && overlays[s[1..][k]]
    ensures r.Primary? ==>
      exists i :: 0 <= i < |s| && s[i] == r.id && forall k :: 0 <= k < i ==> s[k] in overlays && overlays[s[k]]
    ensures r.MissingOverlay? ==>
      exists i :: 0 <= i < |s| && s[i] !in overlays && forall k :: 0 <= k < i ==> s[k] in overlays && overlays[s[k]]
  {
    if r.Primary? || r.MissingOverlay? {
      var i :| 0 <= i < |s| - 1 && (if r.Primary? then s[1..][i] == r.id else s[1..][i] !in overlays)
        && forall k :: 0 <= k < i ==> s[1..][k] in overlays && overlays[s[1..][k]];
      assert forall k :: 0 <= k < i + 1 ==> s[k] in overlays && overlays[s[k]] by {
        forall k | 0 <= k < i + 1 ensures s[k] in overlays && overlays[s[k]] {
          if k > 0 {
            assert s[k] == s[1..][k - 1];
          }
        }
      }
      assert s[i + 1] == s[1..][i];
    }
  }

  /** The second half of `showModal`: display the overlay, push the id unless it is already on
      the stack, and make it current. Nothing happens without an overlay. */
  function Display(m: Modals, overlays: Overlays, id: ModalId): (r: Modals)
    ensures id !in overlays ==> r == m
    ensures id in overlays ==> r.current == Some(id) && r.shown == m.shown + {id}
    ensures id in overlays && id in m.stack ==> r.stack == m.stack
    ensures id in overlays && id !in m.stack ==> r.stack == m.stack + [id]
  {
    if id !in overlays then m
    else Modals(if id in m.stack then m.stack else m.stack + [id], Some(id), m.shown + {id})
  }

  /** The first half of `showModal`: when the stack is non-empty and neither the id nor the
      current top is a sub-modal, the first modal on the stack that is not a sub-modal is
      closed, unless it is the id itself or the empty id (which JavaScript reads as false).
      `None` when the guard reads the style of a missing overlay. */
  function CloseForShow(m: Modals, overlays: Overlays, id: ModalId): (r: Option<Modals>)
    ensures m.stack == [] ==> r == Some(m)
    ensures r.Some? ==> forall x :: x in r.value.stack ==> x in m.stack
    ensures r.Some? ==>
              || r.value == m
              || (&& FindPrimary(m.stack, overlays).Primary?
                  && FindPrimary(m.stack, overlays).id != id
                  && r.value == Hide(m, overlays, FindPrimary(m.stack, overlays).id))
    ensures id in overlays && overlays[id] ==> r == Some(m)
  {
    if m.stack == [] then Some(m)
    else
      var top := m.stack[|m.stack| - 1];
      if id !in overlays then None
      else if overlays[id] || id == top then Some(m)
      else if top !in overlays then None
      else if overlays[top] then Some(m)
      else
        match FindPrimary(m.stack, overlays)
        case MissingOverlay => None
        case NoPrimary => Some(m)
        case Primary(p) => Some(if p != "" && p != id then Hide(m, overlays, p) else m)
  }

  /** `showModal`: the closing step, then the id displayed, pushed if new, and made current. */
  function Show(m: Modals, overlays: Overlays, id: ModalId): (r: Option<Modals>)
    ensures m.stack == [] ==> r == Some(Display(m, overlays, id))
    ensures r.Some? && id in overlays ==> r.value.current == Some(id) && id in r.value.stack
    ensures r.Some? && id in overlays && id !in m.stack ==> r.value.stack != [] && r.value.stack[|r.value.stack| - 1] == id
    ensures r.Some? ==> forall x :: x in m.stack && FindPrimary(m.stack, overlays) != Primary(x) ==> x in r.value.stack
    ensures r.Some? ==> forall x :: x in r.value.stack ==> x in m.stack || x == id
  {
    var closed :- CloseForShow(m, overlays, id);
    if closed == m then Some(Display(closed, overlays, id))
    else
      HideKeepsOthers(m, overlays, FindPrimary(m.stack, overlays).id);
      Some(Display(closed, overlays, id))
  }

  /** Hiding one id keeps every other stacked id on the stack. */
  lemma HideKeepsOthers(m: Modals, overlays: Overlays, id: ModalId)
    ensures forall x :: x in m.stack && x != id ==> x in Hide(m, overlays, id).stack
  {
    var r := Hide(m, overlays, id);
    if id in overlays && id in m.stack {
      var i :| 0 <= i < |m.stack| && m.stack[i] == id && r.stack == m.stack[..i] + m.stack[i + 1..];
      forall x | x in m.stack && x != id ensures x in r.stack {
        CutKeeps(m.stack, i, x);
      }
    }
  }

  /** Cutting one position out of a sequence keeps every value other than the one cut. */
  lemma CutKeeps(s: seq<ModalId>, i: nat, x: ModalId)
    requires i < |s| && x in s && x != s[i]
    ensures x in s[..i] + s[i + 1..]
  {
    var j :| 0 <= j < |s| && s[j] == x;
    if j < i {
      assert s[..i][j] == x;
    } else {
      assert s[i + 1..][j - i - 1] == x;
    }
  }

  lemma HideValid(m: Modals, overlays: Overlays, id: ModalId)
    requires Valid(m)
    ensures Valid(Hide(m, overlays, id))
    ensures id in overlays ==> id !in Hide(m, overlays, id).stack && Hide(m, overlays, id).current != Some(id)
  {
    if id in overlays && id in m.stack {
      SpliceDistinct(m.stack, IndexOf(m.stack, id));
    }
  }

  lemma DisplayValid(m: Modals, overlays: Overlays, id: ModalId)
    requires Valid(m)
    ensures Valid(Display(m, overlays, id))
  {
    if id in overlays && id !in m.stack {
      var s := m.stack + [id];
      forall i, j | 0 <= i < j < |s| ensures s[i] != s[j] {
        if j == |s| - 1 {
          assert s[i] == m.stack[i];
        } else {
          assert s[i] == m.stack[i] && s[j] == m.stack[j];
        }
      }
    }
  }

  /** `showModal` and `hideModal` keep the bookkeeping consistent. */
  lemma ShowValid(m: Modals, overlays: Overlays, id: ModalId)
    requires Valid(m)
    ensures Show(m, overlays, id).Some? ==> Valid(Show(m, overlays, id).value)
  {
    var closed := CloseForShow(m, overlays, id);
    if closed.Some? {
      if m.stack != [] && FindPrimary(m.stack, overlays).Primary? {
        HideValid(m, overlays, FindPrimary(m.stack, overlays).id);
      }
      DisplayValid(closed.value, overlays, id);
    }
  }

  /** `showModal` throws only when an overlay it reads is missing: with every stacked id and
      `id` itself on the page it always completes. */
  lemma ShowCompletes(m: Modals, overlays: Overlays, id: ModalId)
    requires id in overlays
    requires forall x :: x in m.stack ==> x in overlays
    ensures Show(m, overlays, id).Some?
  {
    if m.stack != [] {
      assert m.stack[|m.stack| - 1] in m.stack;
      FindPrimaryFinds(m.stack, overlays);
    }
  }

  lemma {:induction false} FindPrimaryFinds(s: seq<ModalId>, overlays: Overlays)
    requires forall x :: x in s ==> x in overlays
    ensures !FindPrimary(s, overlays).MissingOverlay?
  {
    if s != [] && overlays[s[0]] {
      FindPrimaryFinds(s[1..], overlays);
    }
  }

  /** Hiding a modal that was just displayed undoes the display; the current modal becomes
      the top of the stack. */
  lemma HideUndoesDisplay(m: Modals, overlays: Overlays, id: ModalId)
    requires id in overlays && id !in m.stack && id !in m.shown
    ensures Hide(Display(m, overlays, id), overlays, id) == Modals(m.stack, Top(m.stack), m.shown)
  {
    var s := m.stack + [id];
    assert forall k :: 0 <= k < |m.stack| ==> s[k] == m.stack[k];
    assert IndexOf(s, id) == |m.stack|;
    assert Splice(s, |m.stack|) == m.stack;
  }

  /** A sub-modal opens on top of whatever is open and closes nothing. */
  lemma SubModalStacks(m: Modals, overlays: Overlays, id: ModalId)
    requires id in overlays && overlays[id] && id !in m.stack
    ensures Show(m, overlays, id) == Some(Modals(m.stack + [id], Some(id), m.shown + {id}))
  {
  }

  /** A modal that is not a sub-modal replaces the open one that is not a sub-modal either. */
  lemma PrimaryReplacesPrimary(a: ModalId, shown: set<ModalId>, overlays: Overlays, id: ModalId)
    requires a != "" && a in overlays && !overlays[a]
    requires id in overlays && !overlays[id] && id != a
    ensures Show(Modals([a], Some(a), shown), overlays, id) == Some(Modals([id], Some(id), shown - {a} + {id}))
  {
    var m := Modals([a], Some(a), shown);
    assert FindPrimary([a], overlays) == Primary(a);
    assert IndexOf([a], a) == 0;
    assert Splice([a], 0) == [];
    assert Hide(m, overlays, a) == Modals([], None, shown - {a});
    assert [] + [id] == [id];
  }

  /** A modal whose id is the empty string is never closed to make room: the script tests the
      id it found for truth before hiding it. */
  lemma EmptyIdStays(shown: set<ModalId>, overlays: Overlays, id: ModalId)
    requires "" in overlays && !overlays[""]
    requires id in overlays && !overlays[id] && id != ""
    ensures Show(Modals([""], Some(""), shown), overlays, id) == Some(Modals(["", id], Some(id), shown + {id}))
  {
    assert FindPrimary([""], overlays) == Primary("");
    assert [""] + [id] == ["", id];
  }

  /** Showing the modal that was just opened again changes nothing. */
  lemma ShowTwice(m: Modals, overlays: Overlays, id: ModalId)
    requires id in overlays && id !in m.stack
    requires Show(m, overlays, id).Some?
    ensures Show(Show(m, overlays, id).value, overlays, id) == Show(m, overlays, id)
  {
    var r := Show(m, overlays, id).value;
    assert r.stack[|r.stack| - 1] == id;
  }

  // ---------------------------------------------------------------------------------------
  // Where the sub-modal marks come from

  /** The z-index the script's style sheet gives `--ph-modal-z-index`. */
  const BaseZ: nat := 10001

  function DigitChar(d: nat): char
    requires d < 10
  {
    (48 + d) as char
  }

  predicate IsDigit(c: char) {
    '0' <= c <= '9'
  }

  /** The number a string of decimal digits denotes. */
  function DigitsValue(s: string): nat
    requires forall i :: 0 <= i < |s| ==> IsDigit(s[i])
  {
    if s == [] then 0
    else
      assert IsDigit(s[|s| - 1]);
      DigitsValue(s[..|s| - 1]) * 10 + (s[|s| - 1] as int - 48)
  }

  /** `n.toString()` for a natural number: the digits that denote `n`, with no leading zero. */
  function DecimalText(n: nat): (r: string)
    ensures r != [] && r[|r| - 1] == DigitChar(n % 10)
    ensures forall i :: 0 <= i < |r| ==> IsDigit(r[i])
    ensures DigitsValue(r) == n
    ensures |r| > 1 ==> r[0] != '0'
  {
    if n < 10 then [DigitChar(n)]
    else
      var r := DecimalText(n / 10) + [DigitChar(n % 10)];
      assert r[..|r| - 1] == DecimalText(n / 10);
      r
  }

  /** `createModal`'s z-index: the base for a modal, and for a sub-modal the base plus the
      number of open modals plus one. */
  function ZIndex(isSubModal: bool, openCount: nat): (r: string)
    ensures forall i :: 0 <= i < |r| ==> IsDigit(r[i])
    ensures DigitsValue(r) == if isSubModal then BaseZ + openCount + 1 else BaseZ
  {
    if isSubModal then DecimalText(BaseZ + openCount + 1)
    else
      var r := "10001";
      assert DigitsValue("1") == 1 by { assert "1"[..0] == ""; }
      assert DigitsValue("10") == 10 by { assert "10"[..1] == "1"; }
      assert DigitsValue("100") == 100 by { assert "100"[..2] == "10"; }
      assert DigitsValue("1000") == 1000 by { assert "1000"[..3] == "100"; }
      assert DigitsValue(r) == 10001 by { assert r[..4] == "1000"; }
      r
  }

  /** `zIndex.endsWith('2')`, the test `showModal` applies. */
  predicate MarkedSubModal(z: string) {
    z != [] && z[|z| - 1] == '2'
  }

  /** The test recognises a sub-modal exactly when it was created while the number of open
      modals was a multiple of ten, and never recognises a modal that is not one. */
  lemma MarkedSubModalIff(isSubModal: bool, openCount: nat)
    ensures MarkedSubModal(ZIndex(isSubModal, openCount)) <==> isSubModal && openCount % 10 == 0
  {
    if isSubModal {
      var n := BaseZ + openCount + 1;
      assert n % 10 == (openCount + 2) % 10;
    } else {
      assert "10001"[4] == '1';
    }
  }

  const ListModal: ModalId := "prompt-list-modal"

  /** The overlays as the script marks them: the list modal created while nothing was open,
      a preview created as a sub-modal while the list was open. */
  function MarkedOverlays(preview: ModalId): Overlays {
    map[ListModal := MarkedSubModal(ZIndex(false, 0)), preview := MarkedSubModal(ZIndex(true, 1))]
  }

  /** The overlays marked by the `isSubModal` option the script passes to `createModal`. */
  function IntendedOverlays(preview: ModalId): Overlays {
    map[ListModal := false, preview := true]
  }

  /** Opening a preview from the list modal, as written: the preview is not recognised as a
      sub-modal, so the list modal is closed under it. */
  lemma PreviewClosesList(preview: ModalId)
    requires preview != ListModal
    ensures var o := MarkedOverlays(preview);
      Show(Display(Closed, o, ListModal), o, preview) == Some(Modals([preview], Some(preview), {preview}))
  {
    var o := MarkedOverlays(preview);
    assert ListModal in o && !o[ListModal] && preview in o && !o[preview] by {
      MarkedSubModalIff(false, 0);
      MarkedSubModalIff(true, 1);
    }
    ListOpens(o);
    PrimaryReplacesPrimary(ListModal, {ListModal}, o, preview);
    assert {ListModal} - {ListModal} + {preview} == {preview};
  }

  /** Opening the list modal on an empty page shows it alone. */
  lemma ListOpens(o: Overlays)
    requires ListModal in o
    ensures Display(Closed, o, ListModal) == Modals([ListModal], Some(ListModal), {ListModal})
  {
    assert [] + [ListModal] == [ListModal];
  }

  /** Opening a preview from the list modal with the overlays marked as created: the list
      stays open under the preview. */
  lemma PreviewStacksOnList(preview: ModalId)
    requires preview != ListModal
    ensures var o := IntendedOverlays(preview);
      Show(Display(Closed, o, ListModal), o, preview) == Some(Modals([ListModal, preview], Some(preview), {ListModal, preview}))
  {
    var o := IntendedOverlays(preview);
    assert ListModal in o && preview in o && o[preview];
    ListOpens(o);
    SubModalStacks(Display(Closed, o, ListModal), o, preview);
    assert [ListModal] + [preview] == [ListModal, preview];
    assert {ListModal} + {preview} == {ListModal, preview};
  }
}

=== FILE: options.dfy ===
/** The Some/None datatype used for the program's optional fields (`undefined`/`null`) and for
    parsers that may reject their input. It is failure-compatible, so `:-` can be used with it. */
module Options {

  datatype Option<+T> = None | Some(value: T) {

    predicate IsFailure() {
      None?
    }

    function PropagateFailure<U>(): Option<U>
      requires None?
    {
      None
    }

    function Extract(): T
      requires Some?
    {
      value
    }

    /** The value, or `default` when absent: JavaScript's `x || default` for a string field
        whose only falsy value is the empty string. */
    function GetOr(default: T): T {
      match this
      case Some(v) => v
      case None => default
    }
  }
}

=== FILE: promptform.dfy ===
/** The state of the prompt editor in src/components/prompts/PromptFormDialog.tsx: what opening
    the dialog loads, how the chosen type shows or hides (and clears) the category, and what
    submitting hands to the save handler. Re-renders are modelled as explicit steps: an effect
    on `type` runs after any step that changed the type. */
module PromptForm {
  import opened Options
  import opened Text
  import opened PromptTypes
  import opened PromptStore

  /** The dialog's form fields. */
  datatype Form = Form(title: string, kind: PromptType, content: string, category: string, showCategory: bool)

  /** The state the component is created with: a system prompt with the category shown. */
  const Fresh: Form := Form("", SystemPrompt, "", "", true)

  /** The category is shown exactly for types other than quick actions. */
  predicate ShowsCategoryByType(f: Form) {
    f.showCategory <==> f.kind != QuickAction
  }

  /** The effect on `type`: hide the category of a quick action and clear it, show it for any
      other type and keep it. */
  function TypeEffect(f: Form): (r: Form)
    ensures ShowsCategoryByType(r)
    ensures r.title == f.title && r.kind == f.kind && r.content == f.content
    ensures r.kind == QuickAction ==> r.category == []
    ensures r.kind != QuickAction ==> r.category == f.category
  {
    if f.kind == QuickAction then f.(showCategory := false, category := "")
    else f.(showCategory := true)
  }

  /** The end of a step: the effect on `type` runs when the step changed the type. */
  function Settle(before: Form, after: Form): (r: Form)
    ensures r.title == after.title && r.kind == after.kind && r.content == after.content
    ensures after.kind != before.kind ==> ShowsCategoryByType(r)
    ensures after.kind == before.kind ==> r == after
  {
    if after.kind != before.kind then TypeEffect(after) else after
  }

  /** The effect on `[prompt, isOpen]`: nothing while closed; when open, the prompt's fields
      are loaded, or a blank quick action when there is no prompt. */
  function OpenEffect(f: Form, isOpen: bool, prompt: Option<Prompt>): (r: Form)
    ensures !isOpen ==> r == f
    ensures isOpen ==> ShowsCategoryByType(r)
    ensures isOpen && prompt.Some? ==>
      r.title == prompt.value.title && r.kind == prompt.value.kind
      && r.content == prompt.value.content && r.category == prompt.value.category.GetOr("")
    ensures isOpen && prompt.None? ==> r == Form("", QuickAction, "", "", false)
  {
    if !isOpen then f
    else match prompt
      case Some(p) => Form(p.title, p.kind, p.content, p.category.GetOr(""), p.kind != QuickAction)
      case None => Form("", QuickAction, "", "", false)
  }

  /** Opening the dialog, on a new prompt (`None`) or an existing one, and the re-render that
      follows. */
  function Open(f: Form, prompt: Option<Prompt>): (r: Form)
    ensures ShowsCategoryByType(r)
    ensures prompt.None? ==> r == Form("", QuickAction, "", "", false)
    ensures prompt.Some? ==>
      r.title == prompt.value.title && r.kind == prompt.value.kind && r.content == prompt.value.content
    ensures prompt.Some? && (r.kind != QuickAction || f.kind == QuickAction) ==>
      r.category == prompt.value.category.GetOr("")
    ensures prompt.Some? && r.kind == QuickAction && f.kind != QuickAction ==> r.category == []
  {
    Settle(f, OpenEffect(f, true, prompt))
  }

  /** Picking a type in the select. */
  function ChooseType(f: Form, t: PromptType): (r: Form)
    requires ShowsCategoryByType(f)
    ensures ShowsCategoryByType(r)
    ensures r.kind == t && r.title == f.title && r.content == f.content
    ensures t == QuickAction && f.kind != QuickAction ==> r.category == []
    ensures t != QuickAction ==> r.category == f.category
  {
    Settle(f, f.(kind := t))
  }

  /** Typing into the title, the content or (only while it is shown) the category. */
  datatype Field = TitleField | ContentField | CategoryField

  function Edit(f: Form, field: Field, v: string): (r: Form)
    ensures r.kind == f.kind && r.showCategory == f.showCategory
    ensures field == CategoryField && f.showCategory ==> r.category == v
    ensures field != CategoryField || !f.showCategory ==> r.category == f.category
  {
    match field
    case TitleField => f.(title := v)
    case ContentField => f.(content := v)
    case CategoryField => if f.showCategory then f.(category := v) else f
  }

  /** One interaction with the dialog. */
  datatype Step = OpenStep(prompt: Option<Prompt>) | TypeStep(t: PromptType) | EditStep(field: Field, v: string)

  function Apply(f: Form, s: Step): (r: Form)
    requires ShowsCategoryByType(f)
    ensures ShowsCategoryByType(r)
  {
    match s
    case OpenStep(p) => Open(f, p)
    case TypeStep(t) => ChooseType(f, t)
    case EditStep(field, v) => Edit(f, field, v)
  }

  /** A sequence of interactions. Whatever the user does, the category stays shown exactly
      when the type is not a quick action. */
  function Run(f: Form, steps: seq<Step>): (r: Form)
    requires ShowsCategoryByType(f)
    ensures ShowsCategoryByType(r)
    decreases |steps|
  {
    if steps == [] then f else Run(Apply(f, steps[0]), steps[1..])
  }

  /** A quick action whose form was not a quick action before opening arrives with its
      category cleared; one opened over a quick action keeps the stored category (hidden). */
  lemma OpenQuickAction(f: Form, p: Prompt)
    requires p.kind == QuickAction
    ensures f.kind != QuickAction ==> Open(f, Some(p)).category == []
    ensures f.kind == QuickAction ==> Open(f, Some(p)).category == p.category.GetOr("")
    ensures !Open(f, Some(p)).showCategory
  {
  }

  // ---------------------------------------------------------------------------------------
  // Submitting

  /** What `handleSubmit` does: reject the form, save it as an edit of an existing prompt (a
      record with an id, passed to `updatePrompt`), or save it as a new prompt (no id, passed
      to `addPrompt`). */
  datatype Submission = Rejected | Replaced(prompt: Prompt) | Created(data: PromptData)

  /** The category that is saved: none for a quick action, otherwise the trimmed text when it
      is not empty. */
  function SavedCategory(kind: PromptType, category: string): (r: Option<string>)
    ensures kind == QuickAction ==> r.None?
    ensures kind != QuickAction ==> (r.Some? <==> !AllWhitespace(category))
    ensures r.Some? ==> r.value != [] && Trimmed(r.value) && r.value == Trim(category)
  {
    if kind == QuickAction then None
    else
      var trimmed := Trim(category);
      if trimmed == [] then None else Some(trimmed)
  }

  /** A stored category the form reproduces: none for a quick action, otherwise absent or
      trimmed and non-empty. */
  predicate NormalCategory(kind: PromptType, category: Option<string>) {
    (kind == QuickAction ==> category.None?)
    && (category.Some? ==> category.value != [] && Trimmed(category.value))
  }

  function Submit(f: Form, editing: Option<Prompt>): (r: Submission)
    ensures r.Rejected? <==> AllWhitespace(f.title) || AllWhitespace(f.content)
    ensures r.Replaced? <==> !r.Rejected? && editing.Some? && editing.value.id != []
    ensures r.Replaced? ==> r.prompt.id == editing.value.id
    ensures r.Replaced? ==> DataOf(r.prompt) == PromptData(f.kind, f.title, f.content, None, SavedCategory(f.kind, f.category), None)
    ensures r.Created? ==> r.data == PromptData(f.kind, f.title, f.content, None, SavedCategory(f.kind, f.category), None)
    ensures !r.Rejected? ==> NormalCategory(f.kind, SavedCategory(f.kind, f.category))
  {
    if Trim(f.title) == [] || Trim(f.content) == [] then Rejected
    else
      var data := PromptData(f.kind, f.title, f.content, None, SavedCategory(f.kind, f.category), None);
      if editing.Some? && editing.value.id != [] then Replaced(WithId(data, editing.value.id))
      else Created(data)
  }

  /** Saving normalises the category: a saved category is saved again unchanged. */
  lemma SavedCategoryIdempotent(kind: PromptType, category: string)
    ensures SavedCategory(kind, SavedCategory(kind, category).GetOr("")) == SavedCategory(kind, category)
  {
    if kind != QuickAction && SavedCategory(kind, category).Some? {
      var c := SavedCategory(kind, category).value;
      TrimOfTrimmed(c);
      assert !AllWhitespace(c) by { assert !IsWhitespace(c[0]); }
    }
  }

  /** A normal category comes back from a load-and-save unchanged. */
  lemma NormalCategoryKept(kind: PromptType, category: Option<string>)
    requires NormalCategory(kind, category)
    ensures SavedCategory(kind, category.GetOr("")) == category
  {
    if kind != QuickAction && category.Some? {
      TrimOfTrimmed(category.value);
      assert !AllWhitespace(category.value) by { assert !IsWhitespace(category.value[0]); }
    }
  }

  /** Opening an existing prompt and submitting it untouched saves it back with the same id,
      type, title, content and category, whatever the form held before; only the counters the
      form does not carry (`copyCount`, `userId`) are dropped. */
  lemma EditRoundTrip(f: Form, p: Prompt)
    requires p.id != [] && !AllWhitespace(p.title) && !AllWhitespace(p.content)
    requires NormalCategory(p.kind, p.category)
    ensures Submit(Open(f, Some(p)), Some(p)) == Replaced(p.(copyCount := None, userId := None))
  {
    var g := Open(f, Some(p));
    if p.kind == QuickAction {
      assert SavedCategory(g.kind, g.category) == None;
    } else {
      assert g.category == p.category.GetOr("");
      NormalCategoryKept(p.kind, p.category);
    }
  }

  /** A new prompt cannot be saved from the form as it is opened: title and content are
      empty. */
  lemma NewFormRejected(f: Form)
    ensures Submit(Open(f, None), None) == Rejected
  {
  }

  /** A new prompt whose title and content were typed in is created as a quick action without
      a category. */
  lemma NewQuickAction(f: Form, title: string, content: string)
    requires !AllWhitespace(title) && !AllWhitespace(content)
    ensures
      var g := Edit(Edit(Open(f, None), TitleField, title), ContentField, content);
      Submit(g, None) == Created(PromptData(QuickAction, title, content, None, None, None))
  {
  }

  /** Saving an edit replaces the stored prompt in place: the list keeps its ids, and the
      edited prompt is found under its id. */
  lemma SaveEditUpdatesStore(s: Store, uid: Option<string>, f: Form, p: Prompt)
    requires SignedIn(uid) && p in s.prompts && Submit(f, Some(p)).Replaced?
    ensures Ids(Update(s, uid, Submit(f, Some(p)).prompt).prompts) == Ids(s.prompts)
    ensures Submit(f, Some(p)).prompt in Update(s, uid, Submit(f, Some(p)).prompt).prompts
  {
    var q := Submit(f, Some(p)).prompt;
    UpdateKeepsIds(s, uid, q);
    UpdateFound(s, uid, q);
  }
}

=== FILE: promptstore.dfy ===
/** The prompt list kept by the `usePrompts` hook (src/hooks/usePrompts.ts): the reset when
    the signed-in user changes, and add, update, delete and filter-by-type as transformations
    of the list, each guarded by a signed-in user. Fresh ids are passed in. */
module PromptStore {
  import opened Options
  import opened PromptTypes
  import opened Seqs

  /** The hook's state: `prompts`, `isLoaded`, and `needsUpdate` (the generated script is out of
      date). */
  datatype Store = Store(prompts: seq<Prompt>, isLoaded: bool, needsUpdate: bool)

  const Initial: Store := Store([], false, false)

  /** `Omit<Prompt, 'id'>`: what the caller of `addPrompt` supplies. */
  datatype PromptData = PromptData(
    kind: PromptType, title: string, content: string,
    copyCount: Option<nat>, category: Option<string>, userId: Option<string>)

  /** `{ ...data, id }` */
  function WithId(d: PromptData, id: string): (r: Prompt)
    ensures r.id == id
  {
    Prompt(id, d.kind, d.title, d.content, d.copyCount, d.category, d.userId)
  }

  /** Every field of a prompt but its id. */
  function DataOf(p: Prompt): PromptData {
    PromptData(p.kind, p.title, p.content, p.copyCount, p.category, p.userId)
  }

  /** A prompt is its id together with the rest of its fields. */
  lemma WithIdDataOf(d: PromptData, id: string, p: Prompt)
    ensures DataOf(WithId(d, id)) == d
    ensures WithId(DataOf(p), p.id) == p
  {
  }

  /** `currentUser?.uid` is truthy: present and non-empty. */
  predicate SignedIn(uid: Option<string>) {
    uid.Some? && uid.value != []
  }

  /** The effect on a change of user. Its two branches (a user signed in, or none) do the
      same while loading is not implemented: the list is emptied and marked loaded, whoever
      the user is. */
  function UserChanged(s: Store, uid: Option<string>): (r: Store)
    ensures r.prompts == [] && r.isLoaded
    ensures r.needsUpdate == s.needsUpdate
  {
    Store([], true, s.needsUpdate)
  }

  /** `addPrompt`: without a user nothing changes and nothing is returned; otherwise the data
      with the fresh id is appended, returned, and the script marked out of date. */
  function Add(s: Store, uid: Option<string>, d: PromptData, freshId: string): (r: (Store, Option<Prompt>))
    ensures !SignedIn(uid) ==> r == (s, None)
    ensures SignedIn(uid) ==>
      && |r.0.prompts| == |s.prompts| + 1
      && r.0.prompts[..|s.prompts|] == s.prompts
      && r.0.prompts[|s.prompts|].id == freshId
      && DataOf(r.0.prompts[|s.prompts|]) == d
      && r.1 == Some(r.0.prompts[|s.prompts|])
      && r.0.needsUpdate && r.0.isLoaded == s.isLoaded
  {
    if !SignedIn(uid) then (s, None)
    else
      var p := WithId(d, freshId);
      assert (s.prompts + [p])[..|s.prompts|] == s.prompts;
      (Store(s.prompts + [p], s.isLoaded, true), Some(p))
  }

  /** `prev.map(p => p.id === updated.id ? updated : p)` */
  function ReplaceById(ps: seq<Prompt>, updated: Prompt): (r: seq<Prompt>)
    ensures |r| == |ps|
    ensures forall i :: 0 <= i < |ps| ==> r[i] == if ps[i].id == updated.id then updated else ps[i]
  {
    if ps == [] then []
    else [if ps[0].id == updated.id then updated else ps[0]] + ReplaceById(ps[1..], updated)
  }

  /** `updatePrompt`: without a user or with an empty id nothing changes; otherwise every
      prompt with the same id is replaced, and the script marked out of date. */
  function Update(s: Store, uid: Option<string>, updated: Prompt): (r: Store)
    ensures !SignedIn(uid) || updated.id == [] ==> r == s
    ensures SignedIn(uid) && updated.id != [] ==>
      r.prompts == ReplaceById(s.prompts, updated) && r.needsUpdate && r.isLoaded == s.isLoaded
  {
    if !SignedIn(uid) || updated.id == [] then s
    else Store(ReplaceById(s.prompts, updated), s.isLoaded, true)
  }

  /** Whether a prompt does not carry the id `id`. */
  function OtherId(id: string): Prompt -> bool {
    (p: Prompt) => p.id != id
  }

  /** `deletePrompt`: without a user or with an empty id nothing changes; otherwise every
      prompt with that id is dropped, and the script marked out of date. */
  function Delete(s: Store, uid: Option<string>, id: string): (r: Store)
    ensures !SignedIn(uid) || id == [] ==> r == s
    ensures SignedIn(uid) && id != [] ==> r.prompts == Filter(s.prompts, OtherId(id)) && r.needsUpdate
  {
    if !SignedIn(uid) || id == [] then s
    else Store(Filter(s.prompts, OtherId(id)), s.isLoaded, true)
  }

  function OfKind(t: PromptType): Prompt -> bool {
    (p: Prompt) => p.kind == t
  }

  /** `getPromptsByType`: the prompts of one type, each as often as in the list, in the
      list's order. */
  function ByType(ps: seq<Prompt>, t: PromptType): (r: seq<Prompt>)
    ensures forall i :: 0 <= i < |r| ==> r[i].kind == t
    ensures forall x :: multiset(r)[x] == if x.kind == t then multiset(ps)[x] else 0
    ensures IsSubsequence(r, ps)
  {
    FilterCounts(ps, OfKind(t));
    FilterIsSubsequence(ps, OfKind(t));
    Filter(ps, OfKind(t))
  }

  // ---------------------------------------------------------------------------------------
  // Properties

  function Ids(ps: seq<Prompt>): (r: seq<string>)
    ensures |r| == |ps|
    ensures forall i :: 0 <= i < |ps| ==> r[i] == ps[i].id
  {
    seq(|ps|, i requires 0 <= i < |ps| => ps[i].id)
  }

  predicate UniqueIds(ps: seq<Prompt>) {
    forall i, j :: 0 <= i < j < |ps| ==> ps[i].id != ps[j].id
  }

  /** Deleting the prompt just added with a fresh id gives the list back. */
  lemma DeleteUndoesAdd(s: Store, uid: Option<string>, d: PromptData, freshId: string)
    requires SignedIn(uid) && freshId != [] && freshId !in Ids(s.prompts)
    ensures Delete(Add(s, uid, d, freshId).0, uid, freshId).prompts == s.prompts
  {
    var p := WithId(d, freshId);
    FilterAppend(s.prompts, [p], OtherId(freshId));
    FilterKeepsAll(s.prompts, OtherId(freshId));
  }

  /** Adding with a fresh id keeps ids unique. */
  lemma AddKeepsUniqueIds(s: Store, uid: Option<string>, d: PromptData, freshId: string)
    requires UniqueIds(s.prompts) && freshId !in Ids(s.prompts)
    ensures UniqueIds(Add(s, uid, d, freshId).0.prompts)
  {
    if SignedIn(uid) {
      var r := Add(s, uid, d, freshId).0.prompts;
      forall i, j | 0 <= i < j < |r| ensures r[i].id != r[j].id {
        if j == |s.prompts| {
          assert r[i] == s.prompts[i];
          assert Ids(s.prompts)[i] == s.prompts[i].id;
        } else {
          assert r[i] == s.prompts[i] && r[j] == s.prompts[j];
        }
      }
    }
  }

  /** Updating never changes which ids the list holds, or where. */
  lemma UpdateKeepsIds(s: Store, uid: Option<string>, updated: Prompt)
    ensures Ids(Update(s, uid, updated).prompts) == Ids(s.prompts)
  {
  }

  /** Updating twice with the same prompt is updating once. */
  lemma UpdateIdempotent(s: Store, uid: Option<string>, updated: Prompt)
    ensures Update(Update(s, uid, updated), uid, updated) == Update(s, uid, updated)
  {
  }

  /** After an update the list holds the updated prompt exactly when it held its id. */
  lemma UpdateFound(s: Store, uid: Option<string>, updated: Prompt)
    requires SignedIn(uid) && updated.id != []
    ensures updated in Update(s, uid, updated).prompts <==> updated in s.prompts || updated.id in Ids(s.prompts)
  {
    ReplacedFound(s.prompts, ReplaceById(s.prompts, updated), updated);
  }

  /** A list with every prompt of `updated`'s id replaced by it holds `updated` exactly when
      the original held it or its id. */
  lemma ReplacedFound(ps: seq<Prompt>, r: seq<Prompt>, updated: Prompt)
    requires |r| == |ps|
    requires forall i :: 0 <= i < |ps| ==> r[i] == if ps[i].id == updated.id then updated else ps[i]
    ensures updated in r <==> updated in ps || updated.id in Ids(ps)
  {
    if updated.id in Ids(ps) {
      var i :| 0 <= i < |ps| && Ids(ps)[i] == updated.id;
      assert r[i] == updated;
    } else {
      forall i | 0 <= i < |ps| ensures ps[i] != updated && r[i] != updated {
        assert Ids(ps)[i] == ps[i].id;
      }
    }
  }

  /** Deleting drops exactly the prompts with the id, keeps the others as often as they
      occurred, and keeps their order. */
  lemma DeleteKeepsOthers(s: Store, uid: Option<string>, id: string)
    requires SignedIn(uid) && id != []
    ensures id !in Ids(Delete(s, uid, id).prompts)
    ensures forall p: Prompt :: p.id != id ==> multiset(Delete(s, uid, id).prompts)[p] == multiset(s.prompts)[p]
    ensures IsSubsequence(Delete(s, uid, id).prompts, s.prompts)
  {
    var r := Delete(s, uid, id).prompts;
    FilterCounts(s.prompts, OtherId(id));
    FilterIsSubsequence(s.prompts, OtherId(id));
    assert forall i :: 0 <= i < |r| ==> OtherId(id)(r[i]);
  }

  /** Deleting keeps ids unique. */
  lemma DeleteKeepsUniqueIds(s: Store, uid: Option<string>, id: string)
    requires UniqueIds(s.prompts)
    ensures UniqueIds(Delete(s, uid, id).prompts)
  {
    if SignedIn(uid) && id != [] {
      FilterIsSubsequence(s.prompts, OtherId(id));
      SubsequenceUniqueIds(Filter(s.prompts, OtherId(id)), s.prompts);
    }
  }

  lemma {:induction false} SubsequenceUniqueIds(a: seq<Prompt>, b: seq<Prompt>)
    requires IsSubsequence(a, b) && UniqueIds(b)
    ensures UniqueIds(a)
    decreases |b|
  {
    if a != [] {
      assert UniqueIds(b[1..]) by {
        forall i, j | 0 <= i < j < |b| - 1 ensures b[1..][i].id != b[1..][j].id {
          assert b[1..][i] == b[i + 1] && b[1..][j] == b[j + 1];
        }
      }
      if a[0] == b[0] && IsSubsequence(a[1..], b[1..]) {
        SubsequenceUniqueIds(a[1..], b[1..]);
        SubsequenceMembers(a[1..], b[1..]);
        forall i, j | 0 <= i < j < |a| ensures a[i].id != a[j].id {
          if i == 0 {
            assert a[j] == a[1..][j - 1];
            assert a[j] in a[1..];
            var k :| 0 <= k < |b| - 1 && b[1..][k] == a[j];
            assert b[k + 1] == a[j];
          } else {
            assert a[i] == a[1..][i - 1] && a[j] == a[1..][j - 1];
          }
        }
      } else {
        SubsequenceUniqueIds(a, b[1..]);
      }
    }
  }

  lemma {:induction false} SubsequenceMembers(a: seq<Prompt>, b: seq<Prompt>)
    requires IsSubsequence(a, b)
    ensures forall x :: x in a ==> x in b
    decreases |b|
  {
    if a != [] {
      if a[0] == b[0] && IsSubsequence(a[1..], b[1..]) {
        SubsequenceMembers(a[1..], b[1..]);
        assert a == [a[0]] + a[1..];
        assert b == [b[0]] + b[1..];
      } else {
        SubsequenceMembers(a, b[1..]);
        assert b == [b[0]] + b[1..];
      }
    }
  }

  /** The three lists by type split the whole list: every prompt in exactly one, as often as
      it occurs, each in its original order. */
  lemma ByTypePartitions(ps: seq<Prompt>)
    ensures multiset(ByType(ps, SystemPrompt)) + multiset(ByType(ps, AppStarterPrompt))
      + multiset(ByType(ps, QuickAction)) == multiset(ps)
    ensures |ByType(ps, SystemPrompt)| + |ByType(ps, AppStarterPrompt)| + |ByType(ps, QuickAction)| == |ps|
    ensures forall t :: IsSubsequence(ByType(ps, t), ps)
  {
    var m := multiset(ByType(ps, SystemPrompt)) + multiset(ByType(ps, AppStarterPrompt))
      + multiset(ByType(ps, QuickAction));
    assert m == multiset(ps) by {
      ByTypeCounts(ps);
    }
    assert |m| == |multiset(ps)|;
    forall t ensures IsSubsequence(ByType(ps, t), ps) {
      FilterIsSubsequence(ps, OfKind(t));
    }
  }

  lemma ByTypeCounts(ps: seq<Prompt>)
    ensures forall x ::
      multiset(ByType(ps, SystemPrompt))[x] + multiset(ByType(ps, AppStarterPrompt))[x]
        + multiset(ByType(ps, QuickAction))[x] == multiset(ps)[x]
  {
    FilterCounts(ps, OfKind(SystemPrompt));
    FilterCounts(ps, OfKind(AppStarterPrompt));
    FilterCounts(ps, OfKind(QuickAction));
  }

  /** A prompt is listed under its type exactly when it is in the list with that type. */
  lemma ByTypeMembers(ps: seq<Prompt>, t: PromptType, p: Prompt)
    ensures p in ByType(ps, t) <==> p in ps && p.kind == t
  {
    FilterMembers(ps, OfKind(t), p);
  }
}

=== FILE: record.dfy ===
/** `objectToJsStringForScript` (src/lib/utils.ts): one prompt rendered as the script text of
    an object literal, a reader for that text, and the round trip between them. */
module ScriptRecord {
  import opened Options
  import opened Text
  import opened PromptTypes
  import opened JsLiterals
  import opened Escaping

  /** What a generated record says about a prompt: the five fields it writes, with an absent
      category written as the empty string. */
  datatype Entry = Entry(id: string, kind: PromptType, title: string, category: string, content: string)

  /** `prompt.category || ''` */
  function CategoryOrEmpty(p: Prompt): string {
    p.category.GetOr("")
  }

  function EntryOf(p: Prompt): Entry {
    Entry(p.id, p.kind, p.title, CategoryOrEmpty(p), p.content)
  }

  /** The record text as `objectToJsStringForScript`'s template writes it: five field lines between `{` and
      `}`, joined by newlines; `id`, `type`, `title` and `category` single-quoted, `content`
      in backticks, every value escaped. */
  function RecordText(p: Prompt): (r: string)
    ensures |r| == 88 + |Escape(p.id)| + |Escape(TypeName(p.kind))| + |Escape(p.title)|
                     + |Escape(CategoryOrEmpty(p))| + |Escape(p.content)|
    ensures r[..2] == "{\n" && r[|r| - 3..] == "`\n}"
  {
    var a, b, c := EscapeForScript(Some(p.id)), EscapeForScript(Some(TypeName(p.kind))), EscapeForScript(Some(p.title));
    var d, e := EscapeForScript(Some(CategoryOrEmpty(p))), EscapeForScript(Some(p.content));
    RecordFrame(a, b, c, d, e);
    "{\n"
    + ("    id:      '" + a + "'") + ",\n"
    + ("    type:    '" + b + "'") + ",\n"
    + ("    title:   '" + c + "'") + ",\n"
    + ("    category: '" + d + "'") + ",\n"
    + ("    content: `" + e + "`")
    + "\n}"
  }

  /** The fixed text around five escaped values: 88 characters, opening with `{` and a line
      break and closing with the content's backtick, a line break and `}`. */
  lemma RecordFrame(a: string, b: string, c: string, d: string, e: string)
    ensures var r := "{\n"
      + ("    id:      '" + a + "'") + ",\n"
      + ("    type:    '" + b + "'") + ",\n"
      + ("    title:   '" + c + "'") + ",\n"
      + ("    category: '" + d + "'") + ",\n"
      + ("    content: `" + e + "`")
      + "\n}";
      r[..2] == "{\n" && r[|r| - 3..] == "`\n}" && |r| == 88 + |a| + |b| + |c| + |d| + |e|
  {
  }

  /** One field of a record laid out from its indentation on: the indentation, the field's
      lead text with its opening quote, the escaped value, the closing quote, then `tail`. */
  function FieldPart(indent: string, lead: string, q: Quote, v: string, tail: string): string {
    indent + (lead + (Escape(v) + ([CloseChar(q)] + tail)))
  }

  /** How a field is written: the text from the indentation up to and including the
      opening quote, and the kind of quote. */
  datatype FieldSpec = FieldSpec(lead: string, q: Quote)

  /** The five fields of a record, in the order they are written. */
  const RecordFields: seq<FieldSpec> := [
    FieldSpec("    id:      '", SingleQuote),
    FieldSpec("    type:    '", SingleQuote),
    FieldSpec("    title:   '", SingleQuote),
    FieldSpec("    category: '", SingleQuote),
    FieldSpec("    content: `", Backtick)]

  /** The values a prompt writes into the five fields. */
  function FieldValues(p: Prompt): seq<string> {
    [p.id, TypeName(p.kind), p.title, CategoryOrEmpty(p), p.content]
  }

  /** Writes the fields, separated by a comma and a line break, then `tail`. */
  function WriteFields(indent: string, specs: seq<FieldSpec>, vals: seq<string>, tail: string): string
    requires |vals| == |specs|
  {
    if specs == [] then tail
    else FieldPart(indent, specs[0].lead, specs[0].q, vals[0],
                   if |specs| == 1 then tail else ",\n" + WriteFields(indent, specs[1..], vals[1..], tail))
  }

  /** The record text with every line break followed by `indent`, then `rest`. */
  function Layout(indent: string, p: Prompt, rest: string): string {
    "{\n" + WriteFields(indent, RecordFields, FieldValues(p), "\n" + (indent + ("}" + rest)))
  }

  /** `objectToJsStringForScript`'s record text is the layout without indentation. */
  lemma RecordTextLayout(p: Prompt)
    ensures RecordText(p) == Layout("", p, [])
  {
    var end := "\n" + ("" + ("}" + []));
    assert end == "\n}";
    RecordFieldsUnfold("", p, end);
    RecordChunks(Escape(p.id), Escape(TypeName(p.kind)), Escape(p.title), Escape(CategoryOrEmpty(p)), Escape(p.content));
  }

  /** The two ways of cutting a record's text into literal pieces agree: on the left the
      right-nested form `Layout` produces with an empty indent (each field's lead, escaped
      value and closing quote, then `,\n` and the rest), on the right the five `${...}`
      fields of the template joined left to right. */
  lemma RecordChunks(e0: string, e1: string, e2: string, e3: string, e4: string)
    ensures var end := "\n" + ("" + ("}" + []));
      "{\n" + ("" + ("    id:      '" + (e0 + (['\''] + (",\n" + ("" + ("    type:    '" + (e1 + (['\''] + (",\n" + ("" + ("    title:   '" + (e2 + (['\''] + (",\n" + ("" + ("    category: '" + (e3 + (['\''] + (",\n" + ("" + ("    content: `" + (e4 + (['`'] + end))))))))))))))))))))))))
      == "{\n" + ("    id:      '" + e0 + "'") + ",\n" + ("    type:    '" + e1 + "'") + ",\n"
      + ("    title:   '" + e2 + "'") + ",\n" + ("    category: '" + e3 + "'") + ",\n"
      + ("    content: `" + e4 + "`") + "\n}"
  {
    var end := "\n" + ("" + ("}" + []));
    assert end == "\n}";
    var w4 := "" + ("    content: `" + (e4 + (['`'] + end)));
    var w3 := "" + ("    category: '" + (e3 + (['\''] + (",\n" + w4))));
    var w2 := "" + ("    title:   '" + (e2 + (['\''] + (",\n" + w3))));
    var w1 := "" + ("    type:    '" + (e1 + (['\''] + (",\n" + w2))));
    var w0 := "" + ("    id:      '" + (e0 + (['\''] + (",\n" + w1))));
    assert "{\n" + w0 == "{\n" + ("    id:      '" + e0 + "'") + ",\n" + ("    type:    '" + e1 + "'") + ",\n"
      + ("    title:   '" + e2 + "'") + ",\n" + ("    category: '" + e3 + "'") + ",\n"
      + ("    content: `" + e4 + "`") + "\n}";
  }

  /** `WriteFields` over the five record fields, written out. */
  lemma RecordFieldsUnfold(indent: string, p: Prompt, end: string)
    ensures WriteFields(indent, RecordFields, FieldValues(p), end) ==
      FieldPart(indent, "    id:      '", SingleQuote, p.id, ",\n" +
      FieldPart(indent, "    type:    '", SingleQuote, TypeName(p.kind), ",\n" +
      FieldPart(indent, "    title:   '", SingleQuote, p.title, ",\n" +
      FieldPart(indent, "    category: '", SingleQuote, CategoryOrEmpty(p), ",\n" +
      FieldPart(indent, "    content: `", Backtick, p.content, end)))))
  {
    var f := RecordFields;
    var v := FieldValues(p);
    var w4 := FieldPart(indent, f[4].lead, f[4].q, v[4], end);
    assert WriteFields(indent, f[4..], v[4..], end) == w4;
    var w3 := FieldPart(indent, f[3].lead, f[3].q, v[3], ",\n" + w4);
    assert WriteFields(indent, f[3..], v[3..], end) == w3 by { assert f[3..][1..] == f[4..]; assert v[3..][1..] == v[4..]; }
    var w2 := FieldPart(indent, f[2].lead, f[2].q, v[2], ",\n" + w3);
    assert WriteFields(indent, f[2..], v[2..], end) == w2 by { assert f[2..][1..] == f[3..]; assert v[2..][1..] == v[3..]; }
    var w1 := FieldPart(indent, f[1].lead, f[1].q, v[1], ",\n" + w2);
    assert WriteFields(indent, f[1..], v[1..], end) == w1 by { assert f[1..][1..] == f[2..]; assert v[1..][1..] == v[2..]; }
  }

  /** `t` with the literal `prefix` removed from its front, if it starts with it. */
  function Expect(prefix: string, t: string): (r: Option<string>)
    ensures r.Some? ==> t == prefix + r.value
  {
    if prefix <= t then Some(t[|prefix|..]) else None
  }

  lemma ExpectPrefix(prefix: string, t: string)
    ensures Expect(prefix, prefix + t) == Some(t)
  {
    assert prefix <= prefix + t;
    assert (prefix + t)[|prefix|..] == t;
  }

  /** Reads one field laid out as `FieldPart` writes it: its value and the text after its closing quote. */
  function ReadField(indent: string, lead: string, q: Quote, t: string): (r: Option<(string, string)>)
    ensures r.Some? ==> |r.value.1| < |t|
  {
    var t1 :- Expect(indent, t);
    var t2 :- Expect(lead, t1);
    ReadLiteral(q, t2)
  }

  lemma ReadFieldPart(indent: string, lead: string, q: Quote, v: string, tail: string)
    requires SafeFor(q, v)
    ensures ReadField(indent, lead, q, FieldPart(indent, lead, q, v, tail)) == Some((v, tail))
  {
    var t2 := Escape(v) + ([CloseChar(q)] + tail);
    var t1 := lead + t2;
    ExpectPrefix(indent, t1);
    ExpectPrefix(lead, t2);
    EscapeCharsRoundTrip(q, v, tail);
  }

  /** Reads the fields written by `WriteFields`: their values and the text
      after the last closing quote. */
  function ReadFields(indent: string, specs: seq<FieldSpec>, t: string): (r: Option<(seq<string>, string)>)
    ensures r.Some? ==> |r.value.0| == |specs| && |r.value.1| <= |t|
  {
    if specs == [] then Some(([], t))
    else
      var v :- ReadField(indent, specs[0].lead, specs[0].q, t);
      if |specs| == 1 then Some(([v.0], v.1))
      else
        var t1 :- Expect(",\n", v.1);
        var more :- ReadFields(indent, specs[1..], t1);
        Some(([v.0] + more.0, more.1))
  }

  /** Every value can be written between its field's quotes and read back. */
  predicate FieldsSafe(specs: seq<FieldSpec>, vals: seq<string>)
    requires |vals| == |specs|
  {
    forall i :: 0 <= i < |specs| ==> SafeFor(specs[i].q, vals[i])
  }

  lemma {:induction false} FieldsRoundTrip(indent: string, specs: seq<FieldSpec>, vals: seq<string>, tail: string)
    requires |vals| == |specs| && FieldsSafe(specs, vals)
    ensures ReadFields(indent, specs, WriteFields(indent, specs, vals, tail)) == Some((vals, tail))
  {
    if specs != [] {
      var after := if |specs| == 1 then tail else ",\n" + WriteFields(indent, specs[1..], vals[1..], tail);
      ReadFieldPart(indent, specs[0].lead, specs[0].q, vals[0], after);
      if |specs| > 1 {
        assert FieldsSafe(specs[1..], vals[1..]) by {
          forall i | 0 <= i < |specs| - 1 ensures SafeFor(specs[1..][i].q, vals[1..][i]) {
            assert specs[1..][i] == specs[i + 1];
          }
        }
        FieldsRoundTrip(indent, specs[1..], vals[1..], tail);
        ExpectPrefix(",\n", WriteFields(indent, specs[1..], vals[1..], tail));
        assert [vals[0]] + vals[1..] == vals;
      } else {
        assert [vals[0]] == vals;
      }
    }
  }

  /** Reads one record whose line breaks are each followed by `indent`, and returns what it
      says together with the text after its closing brace. */
  function ParseRecord(indent: string, t: string): (r: Option<(Entry, string)>)
    ensures r.Some? ==> |r.value.1| < |t|
  {
    var t0 :- Expect("{\n", t);
    var fields :- ReadFields(indent, RecordFields, t0);
    var t1 :- Expect("\n", fields.1);
    var t2 :- Expect(indent, t1);
    var t3 :- Expect("}", t2);
    var vs := fields.0;
    var k :- ParseTypeName(vs[1]);
    Some((Entry(vs[0], k, vs[2], vs[3], vs[4]), t3))
  }

  /** A prompt whose record reads back unchanged: its single-quoted fields hold no `'` and no
      line break, and its content no CR. */
  predicate Recordable(p: Prompt) {
    && SafeFor(SingleQuote, p.id)
    && SafeFor(SingleQuote, p.title)
    && SafeFor(SingleQuote, CategoryOrEmpty(p))
    && SafeFor(Backtick, p.content)
  }

  /** Round trip of one record, under any indentation of its line breaks: reading the text
      back gives every field the prompt wrote, and the text after the record. */
  lemma RecordRoundTrip(indent: string, p: Prompt, rest: string)
    requires Recordable(p)
    ensures ParseRecord(indent, Layout(indent, p, rest)) == Some((EntryOf(p), rest))
  {
    var end := "\n" + (indent + ("}" + rest));
    var w := WriteFields(indent, RecordFields, FieldValues(p), end);
    assert SafeFor(SingleQuote, TypeName(p.kind));
    assert FieldsSafe(RecordFields, FieldValues(p));
    ExpectPrefix("{\n", w);
    FieldsRoundTrip(indent, RecordFields, FieldValues(p), end);
    ExpectPrefix("\n", indent + ("}" + rest));
    ExpectPrefix(indent, "}" + rest);
    ExpectPrefix("}", rest);
    assert ParseTypeName(TypeName(p.kind)) == Some(p.kind);
  }
}

=== FILE: seqs.dfy ===
/** `Array.prototype.filter` over sequences, and what it keeps: an order-preserving
    subsequence holding every kept element as often as the input does. */
module Seqs {

  /** The elements of `s` for which `keep` holds, in order. */
  function Filter<T>(s: seq<T>, keep: T -> bool): (r: seq<T>)
    ensures |r| <= |s|
    ensures forall i :: 0 <= i < |r| ==> keep(r[i])
  {
    if s == [] then []
    else (if keep(s[0]) then [s[0]] else []) + Filter(s[1..], keep)
  }

  /** `a` is `b` with some elements left out, the rest in their order. */
  predicate IsSubsequence<T(==)>(a: seq<T>, b: seq<T>)
    decreases |b|
  {
    if a == [] then true
    else if b == [] then false
    else (a[0] == b[0] && IsSubsequence(a[1..], b[1..])) || IsSubsequence(a, b[1..])
  }

  lemma {:induction false} FilterIsSubsequence<T>(s: seq<T>, keep: T -> bool)
    ensures IsSubsequence(Filter(s, keep), s)
  {
    if s != [] {
      FilterIsSubsequence(s[1..], keep);
      var rest := Filter(s[1..], keep);
      if keep(s[0]) {
        assert Filter(s, keep) == [s[0]] + rest;
        assert ([s[0]] + rest)[1..] == rest;
      } else {
        assert Filter(s, keep) == rest;
        if rest != [] {
          assert IsSubsequence(rest, s[1..]);
        }
      }
    }
  }

  /** Filtering keeps each element exactly as often as the input has it, if kept, and drops
      every occurrence otherwise. */
  lemma {:induction false} FilterCounts<T>(s: seq<T>, keep: T -> bool)
    ensures forall x :: multiset(Filter(s, keep))[x] == if keep(x) then multiset(s)[x] else 0
  {
    if s != [] {
      FilterCounts(s[1..], keep);
      assert s == [s[0]] + s[1..];
      assert multiset(s) == multiset{s[0]} + multiset(s[1..]);
    }
  }

  /** Membership after filtering. */
  lemma FilterMembers<T>(s: seq<T>, keep: T -> bool, x: T)
    ensures x in Filter(s, keep) <==> x in s && keep(x)
  {
    FilterCounts(s, keep);
    assert x in Filter(s, keep) <==> multiset(Filter(s, keep))[x] > 0;
    assert x in s <==> multiset(s)[x] > 0;
  }

  lemma {:induction false} FilterAppend<T>(a: seq<T>, b: seq<T>, keep: T -> bool)
    ensures Filter(a + b, keep) == Filter(a, keep) + Filter(b, keep)
  {
    if a == [] {
      assert a + b == b;
    } else {
      assert (a + b)[0] == a[0];
      assert (a + b)[1..] == a[1..] + b;
      FilterAppend(a[1..], b, keep);
    }
  }

  /** Filtering a sequence all of whose elements are kept changes nothing. */
  lemma {:induction false} FilterKeepsAll<T>(s: seq<T>, keep: T -> bool)
    requires forall i :: 0 <= i < |s| ==> keep(s[i])
    ensures Filter(s, keep) == s
  {
    if s != [] {
      FilterKeepsAll(s[1..], keep);
      assert s == [s[0]] + s[1..];
    }
  }
}

=== FILE: text.dfy ===
/** String helpers shared by the model: ECMAScript `trim`, ASCII lower-casing and
    global single-character replacement (`s.replace(/c/g, rep)`). */
module Text {

  /** The WhiteSpace and LineTerminator code points that `String.prototype.trim` removes
      (sections 12.2 and 12.3 of ECMA-262; the Zs category as of Unicode 15). */
  predicate IsWhitespace(c: char) {
    || c == '\t' || c == '\n' || c == '\U{000B}' || c == '\U{000C}' || c == '\r' || c == ' '
    || c == '\U{00A0}' || c == '\U{1680}' || ('\U{2000}' <= c <= '\U{200A}')
    || c == '\U{2028}' || c == '\U{2029}' || c == '\U{202F}' || c == '\U{205F}'
    || c == '\U{3000}' || c == '\U{FEFF}'
  }

  predicate AllWhitespace(s: string) {
    forall i :: 0 <= i < |s| ==> IsWhitespace(s[i])
  }

  /** `s` neither starts nor ends with whitespace. */
  predicate Trimmed(s: string) {
    s == [] || (!IsWhitespace(s[0]) && !IsWhitespace(s[|s| - 1]))
  }

  /** Drops leading whitespace; the result is a suffix of `s`. */
  function TrimStart(s: string): (r: string)
    ensures |r| <= |s| && r == s[|s| - |r|..]
    ensures AllWhitespace(s[..|s| - |r|])
    ensures r == [] || !IsWhitespace(r[0])
  {
    if s != [] && IsWhitespace(s[0]) then
      var r := TrimStart(s[1..]);
      DropOneMore(s, r);
      r
    else s
  }

  /** One more leading whitespace character keeps a trimmed suffix a suffix after whitespace. */
  lemma DropOneMore(s: string, r: string)
    requires s != [] && IsWhitespace(s[0])
    requires |r| <= |s| - 1 && r == s[1..][|s| - 1 - |r|..] && AllWhitespace(s[1..][..|s| - 1 - |r|])
    ensures r == s[|s| - |r|..] && AllWhitespace(s[..|s| - |r|])
  {
    assert s[..|s| - |r|] == [s[0]] + s[1..][..|s| - 1 - |r|];
  }

  /** Drops trailing whitespace; the result is a prefix of `s`. */
  function TrimEnd(s: string): (r: string)
    ensures |r| <= |s| && r == s[..|r|]
    ensures AllWhitespace(s[|r|..])
    ensures r == [] || !IsWhitespace(r[|r| - 1])
  {
    if s != [] && IsWhitespace(s[|s| - 1]) then
      var r := TrimEnd(s[..|s| - 1]);
      DropOneLess(s, r);
      r
    else s
  }

  /** One more trailing whitespace character keeps a trimmed prefix a prefix before
      whitespace. */
  lemma DropOneLess(s: string, r: string)
    requires s != [] && IsWhitespace(s[|s| - 1])
    requires |r| <= |s| - 1 && r == s[..|s| - 1][..|r|] && AllWhitespace(s[..|s| - 1][|r|..])
    ensures r == s[..|r|] && AllWhitespace(s[|r|..])
  {
    assert s[|r|..] == s[..|s| - 1][|r|..] + [s[|s| - 1]];
  }

  /** `String.prototype.trim`: the slice of `s` left after removing whitespace at both ends. */
  function Trim(s: string): (r: string)
    ensures Trimmed(r)
    ensures |r| <= |s|
    ensures r == [] <==> AllWhitespace(s)
    ensures exists k :: IsWhitespaceFrame(s, k, r)
  {
    var a := TrimStart(s);
    var r := TrimEnd(a);
    TrimFacts(s, a, r);
    r
  }

  /** `s` is `r` with `s[..k]` before it and `s[k + |r|..]` after it, both all whitespace. */
  predicate IsWhitespaceFrame(s: string, k: int, r: string) {
    0 <= k <= |s| - |r| && s[k..k + |r|] == r && AllWhitespace(s[..k]) && AllWhitespace(s[k + |r|..])
  }

  /** What trimming promises, for any whitespace-free-at-the-front suffix `a` of `s` and any
      whitespace-free-at-the-end prefix `r` of `a`, each cut off from whitespace only. */
  lemma TrimFacts(s: string, a: string, r: string)
    requires |a| <= |s| && a == s[|s| - |a|..] && AllWhitespace(s[..|s| - |a|])
    requires a == [] || !IsWhitespace(a[0])
    requires |r| <= |a| && r == a[..|r|] && AllWhitespace(a[|r|..])
    requires r == [] || !IsWhitespace(r[|r| - 1])
    ensures Trimmed(r) && |r| <= |s|
    ensures r == [] <==> AllWhitespace(s)
    ensures IsWhitespaceFrame(s, |s| - |a|, r)
  {
    FrameOf(s, a, r);
    TrimmedPrefix(a, r);
    if r == [] {
      assert a == [] by { assert a[0..] == a; }
      assert s[..|s|] == s;
    } else {
      assert s[|s| - |a|] == r[0];
    }
  }

  /** A prefix that does not end in whitespace, of a text that does not start with it, is
      trimmed. */
  lemma TrimmedPrefix(a: string, r: string)
    requires a == [] || !IsWhitespace(a[0])
    requires |r| <= |a| && r == a[..|r|] && (r == [] || !IsWhitespace(r[|r| - 1]))
    ensures Trimmed(r)
  {
    if r != [] {
      assert r[0] == a[0];
    }
  }

  /** A suffix `a` of `s` after whitespace, and a prefix `r` of `a` before whitespace, frame
      `r` inside `s`. */
  lemma FrameOf(s: string, a: string, r: string)
    requires |a| <= |s| && a == s[|s| - |a|..] && AllWhitespace(s[..|s| - |a|])
    requires |r| <= |a| && r == a[..|r|] && AllWhitespace(a[|r|..])
    ensures IsWhitespaceFrame(s, |s| - |a|, r)
  {
    var k := |s| - |a|;
    assert s[k..k + |r|] == a[..|r|];
    assert s[k + |r|..] == a[|r|..];
  }

  /** Trimming a string that is already trimmed changes nothing, so `Trim` is idempotent. */
  lemma TrimOfTrimmed(s: string)
    requires Trimmed(s)
    ensures Trim(s) == s
  {
    assert TrimStart(s) == s;
    assert TrimEnd(s) == s;
  }

  lemma TrimIdempotent(s: string)
    ensures Trim(Trim(s)) == Trim(s)
  {
    TrimOfTrimmed(Trim(s));
  }

  /** Leading whitespace in front of a text that does not start with whitespace is dropped. */
  lemma {:induction false} TrimStartPadded(pad: string, s: string)
    requires AllWhitespace(pad) && (s == [] || !IsWhitespace(s[0]))
    ensures TrimStart(pad + s) == s
  {
    if pad != [] {
      assert (pad + s)[1..] == pad[1..] + s;
      TrimStartPadded(pad[1..], s);
    } else {
      assert pad + s == s;
    }
  }

  /** Trailing whitespace after a text that does not end with whitespace is dropped. */
  lemma {:induction false} TrimEndPadded(s: string, pad: string)
    requires AllWhitespace(pad) && (s == [] || !IsWhitespace(s[|s| - 1]))
    ensures TrimEnd(s + pad) == s
  {
    if pad != [] {
      assert (s + pad)[..|s + pad| - 1] == s + pad[..|pad| - 1];
      TrimEndPadded(s, pad[..|pad| - 1]);
    } else {
      assert s + pad == s;
    }
  }

  /** Whitespace padding on both sides of a trimmed text is exactly what `Trim` removes. */
  lemma TrimPadded(pad: string, s: string, pad2: string)
    requires AllWhitespace(pad) && AllWhitespace(pad2) && Trimmed(s) && s != []
    ensures Trim(pad + s + pad2) == s
  {
    assert pad + s + pad2 == pad + (s + pad2);
    TrimStartPadded(pad, s + pad2);
    TrimEndPadded(s, pad2);
  }

  /** `toLowerCase` restricted to ASCII letters. */
  function LowerChar(c: char): char {
    if 'A' <= c <= 'Z' then (c as int + 32) as char else c
  }

  function ToLower(s: string): (r: string)
    ensures |r| == |s|
    ensures forall i :: 0 <= i < |s| ==> r[i] == LowerChar(s[i])
  {
    seq(|s|, i requires 0 <= i < |s| => LowerChar(s[i]))
  }

  /** Number of occurrences of `c` in `s`. */
  function CountChar(s: string, c: char): nat {
    if s == [] then 0 else (if s[0] == c then 1 else 0) + CountChar(s[1..], c)
  }

  /** `s.replace(/c/g, rep)`: every occurrence of the character `c` becomes `rep`. */
  function ReplaceChar(s: string, c: char, rep: string): string {
    if s == [] then [] else (if s[0] == c then rep else [s[0]]) + ReplaceChar(s[1..], c, rep)
  }

  lemma {:induction false} ReplaceCharAppend(a: string, b: string, c: char, rep: string)
    ensures ReplaceChar(a + b, c, rep) == ReplaceChar(a, c, rep) + ReplaceChar(b, c, rep)
  {
    if a != [] {
      var head := if a[0] == c then rep else [a[0]];
      assert (a + b)[0] == a[0];
      assert (a + b)[1..] == a[1..] + b;
      assert ReplaceChar(a + b, c, rep) == head + ReplaceChar(a[1..] + b, c, rep);
      ReplaceCharAppend(a[1..], b, c, rep);
      Associative(head, ReplaceChar(a[1..], c, rep), ReplaceChar(b, c, rep));
    } else {
      assert a + b == b;
    }
  }

  lemma Associative(x: string, y: string, z: string)
    ensures x + (y + z) == (x + y) + z
  {
  }

  lemma {:induction false} ReplaceCharAbsent(s: string, c: char, rep: string)
    requires c !in s
    ensures ReplaceChar(s, c, rep) == s
  {
    if s != [] {
      ReplaceCharAbsent(s[1..], c, rep);
    }
  }

  /** Each occurrence of `c` grows the text by `|rep| - 1`. */
  lemma {:induction false} ReplaceCharLength(s: string, c: char, rep: string)
    ensures |ReplaceChar(s, c, rep)| == |s| + CountChar(s, c) * (|rep| - 1)
  {
    if s != [] {
      ReplaceCharLength(s[1..], c, rep);
    }
  }

  /** Replacing by a single character is a pointwise substitution. */
  lemma {:induction false} ReplaceCharPointwise(s: string, c: char, d: char)
    ensures |ReplaceChar(s, c, [d])| == |s|
    ensures forall i :: 0 <= i < |s| ==> ReplaceChar(s, c, [d])[i] == (if s[i] == c then d else s[i])
  {
    if s != [] {
      ReplaceCharPointwise(s[1..], c, d);
    }
  }
}

=== FILE: types.dfy ===
/** The shared data model of src/types/index.ts: the closed `PromptType` enumeration, the
    `Prompt` record and the three constant tables keyed by type. */
module PromptTypes {
  import opened Options

  /** `'SYSTEM_PROMPT' | 'APP_STARTER_PROMPT' | 'QUICK_ACTION'` */
  datatype PromptType = SystemPrompt | AppStarterPrompt | QuickAction

  /** A prompt record. `id`, `kind`, `title` and `content` are required; `copyCount`,
      `category` and `userId` may be absent. The empty string is a legal (falsy) value of
      every string field. */
  datatype Prompt = Prompt(
    id: string,
    kind: PromptType,
    title: string,
    content: string,
    copyCount: Option<nat>,
    category: Option<string>,
    userId: Option<string>)

  /** The string value of each enumeration member, as it appears in stored records and in
      generated scripts. */
  function TypeName(t: PromptType): string {
    match t
    case SystemPrompt => "SYSTEM_PROMPT"
    case AppStarterPrompt => "APP_STARTER_PROMPT"
    case QuickAction => "QUICK_ACTION"
  }

  /** Reads an enumeration member back from its string value; any other string is rejected. */
  function ParseTypeName(s: string): (r: Option<PromptType>)
    ensures r.Some? ==> TypeName(r.value) == s
    ensures forall t :: TypeName(t) == s ==> r == Some(t)
  {
    if s == "SYSTEM_PROMPT" then Some(SystemPrompt)
    else if s == "APP_STARTER_PROMPT" then Some(AppStarterPrompt)
    else if s == "QUICK_ACTION" then Some(QuickAction)
    else None
  }

  /** Distinct types have distinct names, so a name identifies its type. */
  lemma TypeNameInjective(t: PromptType, u: PromptType)
    ensures TypeName(t) == TypeName(u) ==> t == u
  {
    if TypeName(t) == TypeName(u) {
      assert ParseTypeName(TypeName(t)) == Some(t);
    }
  }

  /** `PROMPT_TYPES`: three keys, one per enumeration member. */
  const PromptTypesTable: map<string, PromptType> :=
    map["SYSTEM" := SystemPrompt, "APP_STARTER" := AppStarterPrompt, "QUICK_ACTION" := QuickAction]

  /** `PROMPT_TYPES` maps exactly its three keys onto exactly the three types, one to one. */
  lemma PromptTypesTableIsBijective()
    ensures PromptTypesTable.Keys == {"SYSTEM", "APP_STARTER", "QUICK_ACTION"}
    ensures forall t: PromptType :: t in PromptTypesTable.Values
    ensures forall k1, k2 :: k1 in PromptTypesTable && k2 in PromptTypesTable && PromptTypesTable[k1] == PromptTypesTable[k2] ==> k1 == k2
  {
    forall t: PromptType ensures t in PromptTypesTable.Values {
      match t
      case SystemPrompt => assert PromptTypesTable["SYSTEM"] == t;
      case AppStarterPrompt => assert PromptTypesTable["APP_STARTER"] == t;
      case QuickAction => assert PromptTypesTable["QUICK_ACTION"] == t;
    }
  }

  /** `PROMPT_TYPE_NAMES`: the section heading shown for each type. */
  function DisplayName(t: PromptType): (r: string)
    ensures r != []
  {
    match t
    case SystemPrompt => "System Prompts"
    case AppStarterPrompt => "App Starter Prompts"
    case QuickAction => "Quick Actions"
  }

  /** The display names are pairwise distinct, so every section heading names one type. */
  lemma DisplayNamesDistinct(t: PromptType, u: PromptType)
    ensures DisplayName(t) == DisplayName(u) ==> t == u
  {
    if t != u {
      match t
      case SystemPrompt => assert DisplayName(t)[0] == 'S' && DisplayName(u)[0] != 'S';
      case AppStarterPrompt => assert DisplayName(t)[0] == 'A' && DisplayName(u)[0] != 'A';
      case QuickAction => assert DisplayName(t)[0] == 'Q' && DisplayName(u)[0] != 'Q';
    }
  }

  /** The fields of a `PROMPT_TEMPLATES` entry, in the order they are written. */
  datatype TemplateFields = TemplateFields(
    id: string, typeName: string, title: string, category: Option<string>, content: string)

  /** Each template is for its own type, and only the quick-action template leaves out the
      category field; the other two carry an empty one. */
  function TemplateOf(t: PromptType): (r: TemplateFields)
    ensures r.typeName == TypeName(t)
    ensures r.category == (if t == QuickAction then None else Some(""))
  {
    match t
    case SystemPrompt =>
      TemplateFields("system_template_id_01", "SYSTEM_PROMPT", "(New System Prompt Name)",
                     Some(""), "(Enter system prompt content here)")
    case AppStarterPrompt =>
      TemplateFields("app_starter_template_id_01", "APP_STARTER_PROMPT", "Start: (New App Starter Prompt Name)",
                     Some(""), "(Enter app starter prompt content here)")
    case QuickAction =>
      TemplateFields("quick_action_template_id_01", "QUICK_ACTION", "(Button Text)",
                     None, "(Text to copy)")
  }

  /** Renders template fields the way the constant strings are written; the category
      field is written only when present. */
  function RenderTemplate(f: TemplateFields): string {
    "{id: '" + f.id + "', type: '" + f.typeName + "', title: '" + f.title + "', "
    + (match f.category case Some(c) => "category: '" + c + "', " case None => "")
    + "content: '" + f.content + "'},"
  }

  /** `PROMPT_TEMPLATES[t]`, rendered from its fields. */
  function TemplateText(t: PromptType): string {
    RenderTemplate(TemplateOf(t))
  }

}
